=== FILE: README.md ===
# Scene graph and frame loop of a small Metal renderer, in Dafny

This project models the core of a small macOS Metal renderer. It loads an
ant mesh and hangs it, as the node `formica_rufa`, under the root of a scene
graph. Once per frame it animates the graph and draws it with per-light
shading. The animation also places satellite nodes named `formica_rufa_<i>`
on a spinning ring, but only those that exist: the built scene holds none.
The model covers the following:

- **Node tree** (`Nodes`). A `Node` record holds a name, a non-owning parent
  handle, owned children, a local `modelMatrix`, an optional mesh and a
  material. Nodes are addressed by paths of child indices. `SetMatrixAt`
  overwrites one node's model matrix. `SameShape` says that two trees differ
  at most in their model matrices.
- **Transforms as a free monoid** (`Transform`). A matrix is the word of the
  uninterpreted constructors it is a product of: `Translate`, `Rotate`,
  `Scale` and `Perspective`. The matrix product is concatenation and the
  identity is the empty word. Angles and time are `real`.
- **Pre-order** (`Preorder`). `Paths(t)` lists the nodes of a tree in the
  traversal's order. It is proved to list every valid path exactly once, in
  lexicographic order, which is pre-order with children in array order.
- **Name lookup** (`Lookup`). `nodeNamedRecursive` is a parameter of the
  animation. The model knows it only through its contract `IsFinder`: it
  returns a node of the subtree with exactly the given name, or nothing when
  there is none. `PreorderFind` shows the contract can be met.
- **Camera and animation** (`Scenes`, `Animation`). `Camera.updateAngles`,
  `Scene.updateOrbit` and `Scene.update` are modelled. `update` does the
  following:
  - it optionally advances the orbit;
  - it recomputes the view and projection;
  - it sets the node named `formica_rufa` to `scale(0.5)`;
  - it places each node named `formica_rufa_<i>`, for `i` in
    `1...childNodeCount`, on a spinning ring.

  The satellite count is a parameter. A count below 1 traps, because the
  range `1...0` is invalid.
- **Traversal** (`Traversal`). `Scene.drawRecursive` is a pure function from
  a tree and a parent transform to the indexed draws it issues. Each draw
  carries the uniforms, texture and vertex buffer bound for it. The traps on
  a missing light slot or a missing vertex buffer become `Failure` values.
- **Renderer** (`Render`). `buildScene` is modelled as a function of what
  asset loading returned. `draw(in:)` is modelled as advance time, update,
  then draw. Drawing happens only when a render pass descriptor and a
  drawable exist. The frame's output is the log of encoder commands.

A few facts of the code are worth knowing when reading the model:

- the field of view is π/6 (Scene/Scene.swift:57);
- a satellite's slot angle uses `index - 1`, so satellite 1 sits at angle 0 (Scene/Scene.swift:73-74);
- the camera starts at (0, 0, 3), so the first frame's view translation is (0, 0, −3) (Scene/Scene.swift:25);
- which of several same-named nodes `nodeNamedRecursive` returns is left open.

## Model

| member | source | states |
|---|---|---|
| Nodes.NewNode | Scene/Node.swift:12-23 | a new node has the given name, no parent, no children, the identity model matrix, no mesh and a default material; its subtree holds only itself and the only name found in it is its own |
| Entities.DefaultMaterial | Scene/Scene.swift:16-20 | a fresh material has white specular colour, specular power 1 and no base-colour texture |
| Traversal.NewNodeDrawsNothing | Scene/Node.swift:15-17 | a newly made node, having no mesh, is a pure grouping node: drawing it issues no draw and cannot trap |
| Nodes.SetMatrixAtShape | Scene/Scene.swift:75-79 | assigning a node's `modelMatrix` changes no name, parent, mesh, material or children list anywhere in the tree |
| Nodes.SetMatrixAtMatrix | Scene/Scene.swift:75-79 | after the assignment the target node holds the new matrix and every other node keeps its old one |
| Preorder.PathsArePreorder | Scene/Scene.swift:124-130 | the traversal order lists every node of the tree exactly once, the node itself first, then its children's subtrees in array order (lexicographic order of paths) |
| Lookup.PreorderFindIsFinder | Scene/Scene.swift:69 | the lookup contract (a node of the subtree with exactly that name, or none only when no such node exists) is met by a depth-first search, so it can be relied on |
| Scenes.NewCamera | Scene/Scene.swift:22-25 | the camera starts with no pending drag offset, zero angles and position (0, 0, 3) |
| Scenes.NewScene | Scene/Scene.swift:35-41 | a new scene has identity view and projection matrices, a root node named "Root" made by `Node(name:)`, black ambient light and no lights |
| Scenes.UpdateAngles | Scene/Scene.swift:27-32 | one orbit tick adds 0.001 times the vertical drag offset to the first angle and 0.001 times the horizontal one to the second, and changes neither the offset nor the position |
| Scenes.UpdateOrbit | Scene/Scene.swift:43-45 | recording a drag offset stores it in the camera and changes nothing else, in particular no angle |
| Scenes.ViewMatrix | Scene/Scene.swift:54-56 | the view matrix is the product, in this order, of the translation by the negated camera position, the rotation about X by the first angle and the rotation about Y by the second |
| Scenes.ProjectionMatrix | Scene/Scene.swift:57 | the projection is a perspective with field of view π/6, the given aspect ratio, near plane 0.1 and far plane 100 |
| Animation.Update | Scene/Scene.swift:49-82 | `update` completes iff the satellite count is at least 1 and otherwise traps; the angles move only when `pan` is set; the view is recomputed from the new camera and the projection is a π/6 field of view with near 0.1 and far 100; lights and ambient colour are unchanged |
| Animation.SetNamedShape | Scene/Scene.swift:59-61 | overwriting the matrix of the node the lookup finds, if any, changes nothing but model matrices |
| Animation.SetNamedOnly | Scene/Scene.swift:59-61 | after the overwrite, exactly the node the lookup returns, which carries the looked-up name, holds the new matrix; every other node keeps its matrix, even one with the same name |
| Animation.SetNamedReaches | Scene/Scene.swift:59-61 | when a node with the name exists, one such node holds the new matrix afterwards |
| Animation.AnimateFromShape | Scene/Scene.swift:68-81 | the satellite loop changes nothing but model matrices |
| Animation.AnimateFromOnly | Scene/Scene.swift:68-81 | a node the satellite loop changes is named after a satellite of the loop's range and holds that satellite's matrix |
| Animation.AnimateFromReaches | Scene/Scene.swift:68-81 | every satellite of the loop's range that exists in the tree has one node of its name holding its matrix when the loop ends |
| Animation.LaterSatellitesKeep | Scene/Scene.swift:68-81 | a satellite placed by one iteration is not overwritten by later iterations, since their names differ |
| Animation.LaterSatellitesSkip | Scene/Scene.swift:68-81 | the loop's iterations from `from` on never change the central node, nor a node named after an earlier satellite |
| Animation.AnimateFromOnePerName | Scene/Scene.swift:68-81 | the satellite loop changes at most one node of each name: two distinct nodes with the same name never both change |
| Animation.UpdateKeepsShape | Scene/Scene.swift:49-82 | `update` changes model matrices only: the tree's structure and every other node field are as before |
| Animation.UpdateChangesOnlyTargets | Scene/Scene.swift:59-81 | a node whose model matrix changes is named "formica_rufa" and now holds `scale(0.5)`, or is named "formica_rufa_<i>" with 1 ≤ i ≤ N and now holds satellite i's matrix; a changed "formica_rufa" node is the one the lookup returns; missing names change nothing |
| Animation.UpdateChangesOneNodePerName | Scene/Scene.swift:59-81 | `update` changes at most one node of each name: of two distinct nodes with the same name, at least one keeps its matrix, whichever nodes the lookups return |
| Animation.UpdatePlacesCentral | Scene/Scene.swift:59-61 | if a node named "formica_rufa" exists, the lookup returns one, and exactly that node ends up with `scale(0.5)`: the satellite loop does not overwrite it |
| Animation.UpdatePlacesSatellite | Scene/Scene.swift:63-80 | if a node named "formica_rufa_<i>" exists for 1 ≤ i ≤ N, one such node ends up with rotY(h)·translate(2.4,0,0)·rotZ(2π·0.3·t + h)·translate(0.4,0,0)·rotZ(−π/2)·scale(0.25)·rotY(−π/2), with h = 2π/N·(i−1); later iterations do not overwrite it |
| Animation.SatelliteSlots | Scene/Scene.swift:73-74 | satellite 1 sits at angle 0, consecutive satellites are 2π/N apart, slot N+1 closes the ring, and each spin starts at its slot and grows by 2π·0.3 per unit of time |
| Animation.NamesDistinct | Scene/Scene.swift:69 | satellite names of distinct indices differ, and none equals the central node's name |
| Decimal.ShowInjective | Scene/Scene.swift:69 | the decimal rendering of the index is injective, since parsing it back gives the index |
| Animation.UpdateIgnoresZoom | Scene/Scene.swift:49 | the `zoomIn` and `zoomOut` arguments have no effect on the result |
| Animation.OrbitAccumulates | Scene/Scene.swift:50-52 | over a run of frames, each recording a drag offset and then updating, the angles move by 0.001 times the sums of the vertical and horizontal offsets of the panning frames only |
| Traversal.Emit | Scene/Scene.swift:87-121 | a node with mesh and texture issues one indexed draw per submesh, in submesh order, with its world transform as model matrix, projection·view as view-projection, its material and texture, the mesh's first vertex buffer and the three light slots; other nodes issue none |
| Traversal.DrawRecursive | Scene/Scene.swift:84-131 | a completed traversal issues as many draws as the submeshes of the drawn nodes of the tree, all with the same view-projection and lights; a trap is on the light slots when there are fewer than three lights, and on the vertex buffer otherwise |
| Traversal.DrawSucceedsIff | Scene/Scene.swift:101-109 | the traversal completes iff every drawn node finds three lights and a vertex buffer |
| Traversal.DrawMatchesPreorder | Scene/Scene.swift:85-130 | when it completes, the traversal draws the nodes in pre-order, children in array order, each with world transform = parent transform · product of the local transforms on its path, root first |
| Traversal.GroupNodeForwards | Scene/Scene.swift:124-130 | a node without mesh or texture issues nothing, but its children are still drawn with its world transform as their parent transform |
| Traversal.DrawNode | Scene/Scene.swift:87-109 | drawing one node completes iff it is not drawn, or there are three lights and its mesh has a vertex buffer; it then issues that node's draws; a trap is on the light slots when there are fewer than three lights, and on the vertex buffer otherwise |
| Traversal.DrawChildren | Scene/Scene.swift:124-130 | drawing the children in turn, with the same parent transform, issues as many draws as their subtrees hold when it completes, all with the scene's uniforms, and traps with the same fault as `drawRecursive` |
| Traversal.DrawRootWithOneLeaf | Scene/Scene.swift:84-130 | a grouping root with one childless child, drawn from the identity, draws exactly that child with world transform root · child, and traps exactly when the child does |
| Render.BuildScene | Renderer/Renderer.swift:102-118 | the built scene has exactly the three red, green and blue lights; the root has exactly one child, "formica_rufa", carrying the loaded mesh and texture, specular power 200 and specular colour (0.8, 0.8, 0.8), with no parent set |
| Render.CentralMaterial | Renderer/Renderer.swift:115-117 | the central node's material has the loaded texture, specular power 200 and specular colour (0.8, 0.8, 0.8) |
| Render.BuiltSceneDrawable | Renderer/Renderer.swift:108-111 | the built tree has two nodes, and drawing it never traps on the light slots; it traps only when the loaded mesh has no vertex buffer |
| Render.DrawFrame | Renderer/Renderer.swift:156-185 | every completed frame advances time by 1/fps and animates the scene at the advanced time; a satellite count below 1 traps; without a render pass descriptor or drawable it issues no command; with one but no encoder it traps; with an encoder it completes iff no node of the animated scene traps, and otherwise traps on the light slots or the vertex buffer; a drawn frame begins with the pass set-up and ends with end-encoding, present and commit |
| Render.FrameDrawsFromRoot | Renderer/Renderer.swift:163-184 | with a drawable and an encoder, the frame completes iff the satellite count is at least 1 and no node of the animated scene traps; its commands are then the set-up, the draws of every node of the animated tree in pre-order with world transform = product of the local matrices on its path from the root, and the finish |
| Render.UpdateKeepsTreeOk | Scene/Scene.swift:49-82 | `update` keeps the invariant `buildScene` sets up: if no node traps when drawn before, none does after |
| Render.FramesKeepDrawing | Renderer/Renderer.swift:156-185 | from a scene where no node traps, a run of frames each offering an encoder whenever it offers a drawable completes every frame |
| Render.BuiltSceneKeepsDrawing | Renderer/Renderer.swift:40-58 | from the built scene at time 0, every frame of any run completes, when the loaded mesh has a vertex buffer, the satellite count is at least 1 and an encoder comes with every drawable |
| Render.UpdateBuiltTree | Scene/Scene.swift:59-81 | in any frame, `update` on the built tree sets the central node to `scale(0.5)` and changes nothing else, since the tree holds no satellite name |
| Animation.AnimateFromAbsent | Scene/Scene.swift:68-81 | the satellite loop leaves a tree in which none of its satellite names occurs unchanged |
| Render.FirstFrameDrawsCentralNode | Renderer/Renderer.swift:104-118 | in the first frame of the built scene without panning, for any satellite count, the only draws are the central node's, one per submesh, each with model matrix `scale(0.5)` and view-projection = perspective(π/6) · translate(0,0,−3) · rotX(0) · rotY(0) |

## Left out

- Matrix arithmetic, trigonometry, perspective projection, the normal matrix and `Float` rounding are not modelled. Transform constructors are uninterpreted, and angles, time and π are real numbers.
- The normal matrix is left out of `VertexUniforms`, because it is a function of the model matrix.
- All Metal, MetalKit and ModelIO plumbing is left out: the device, pipeline, depth-stencil state, sampler, vertex descriptor, command queue and command buffer. These are foreign calls with fixed constants. A frame's pass set-up is kept as a fixed command prefix.
- The binding calls made before a node's draws (`setVertexBytes`, `setFragmentBytes`, `setFragmentTexture`, `setVertexBuffer`) are not logged separately. Their values are carried in every draw event of that node instead.
- Asset and texture loading, and their fatal error paths, are left out. `BuildScene` receives the first loaded mesh, which may be absent, and the loaded texture.
- The body of `nodeNamedRecursive` is not part of this model. Only its contract is used, so which of several same-named nodes it picks is left open.
- Animation.AnimateFromReaches: states only that some node with satellite j's name ends up holding j's matrix, not that it is the node iteration j's lookup returned. That lookup runs on the tree the earlier iterations left, and its choice among duplicates is not known. `AnimateFromOnePerName` still bounds the change to one node per name.
- Animation.UpdatePlacesSatellite: states only that some node with the name gets the satellite matrix, not which one. Each iteration's lookup runs on the tree the earlier iterations left, and the lookup's choice among duplicates is not known. `AnimateFromOnePerName` still bounds the change to one node per name.
- The parent back-reference is a non-owning handle holding the parent's name. `Node(name:)` leaves it nil (Scene/Node.swift:14), and `buildScene` appends the child without setting it (Renderer/Renderer.swift:118).
- Render.DrawFrame: requires a positive preferred frame rate. With 0, `Float` division yields an infinite time, which reals cannot represent.
- The aspect ratio's computation from the drawable size is left out. The aspect ratio is a frame input.
- `draw(in:)` calls a two-argument `update` that does not match `Scene.update`. The frame model calls the five-argument `update` of Scene/Scene.swift and takes `pan`, `zoomIn` and `zoomOut` as frame inputs.
- The earlier flat renderer variant (Metaloid/Renderer.swift), its duplicate `Light` and `Material` records (Metaloid/Scene.swift) and the view controller (App/MetalViewController.swift) are left out. The first two are older variants of the modelled code; the third is UI lifecycle.
- Mouse-drag capture is left out. The orbit input arrives through `updateOrbit`.
- Reference semantics are not modelled. `Node` and `Material` are classes, and the model makes them values. So the model assumes an acyclic tree in which no node instance is a child in two places. That is the tree `buildScene` builds. With a shared node, one `modelMatrix` store would change every place it hangs; with a cycle, `drawRecursive` would not end.

=== FILE: Animation.dfy ===
/** Per-frame animation, `Scene.update`: the optional camera orbit tick,
    the view and projection matrices, and the overwriting of the model
    matrices of the central node and of the satellites, each located by name. */
module Animation {
  import opened Wrappers
  import opened Transform
  import opened Nodes
  import opened Lookup
  import opened Scenes
  import Decimal

  /** Name of the central node. */
  const CentralName: string := "formica_rufa"

  /** Name of satellite `i`: the central name, an underscore and `i` in decimal. */
  function SatelliteName(i: nat): string {
    CentralName + "_" + Decimal.Show(i)
  }

  const CentralTransform: Transform := [Scale(0.5)]

  /** Orients and shrinks a satellite mesh before it is placed on the ring. */
  const SatelliteBaseTransform: Transform := [Rotate(ZAxis, -Pi / 2.0), Scale(0.25), Rotate(YAxis, -Pi / 2.0)]

  const PivotPosition: Vec3 := Vec3(0.4, 0.0, 0.0)
  const RotationOffset: Vec3 := Vec3(2.4, 0.0, 0.0)
  const RotationSpeed: real := 0.3

  /** The ring slot of satellite `index` among `count`: slot 1 at angle 0. */
  function HorizontalAngle(index: int, count: int): real
    requires count >= 1
  {
    2.0 * Pi / count as real * (index - 1) as real
  }

  /** The spin of satellite `index` at `time`, phase-shifted by its slot. */
  function RotationAngle(index: int, count: int, time: real): real
    requires count >= 1
  {
    2.0 * Pi * (RotationSpeed * time) + HorizontalAngle(index, count)
  }

  /** The model matrix given to satellite `index`: yaw to its slot, move out
      to the ring, spin, move out to the pivot, then the base pose. */
  function SatelliteTransform(index: int, count: int, time: real): Transform
    requires count >= 1
  {
    [Rotate(YAxis, HorizontalAngle(index, count)),
     Translate(RotationOffset),
     Rotate(ZAxis, RotationAngle(index, count, time)),
     Translate(PivotPosition)]
    + SatelliteBaseTransform
  }

  /** The slots divide the ring evenly: satellite 1 sits at angle 0, each
      next one a `2π/count` further, and slot `count + 1` closes the ring.
      A satellite spins `2π·0.3` radians per unit of time, starting at its slot. */
  lemma SatelliteSlots(count: int, index: int, time: real)
    requires count >= 1
    ensures HorizontalAngle(1, count) == 0.0
    ensures HorizontalAngle(index + 1, count) - HorizontalAngle(index, count) == 2.0 * Pi / count as real
    ensures HorizontalAngle(count + 1, count) == 2.0 * Pi
    ensures RotationAngle(index, count, 0.0) == HorizontalAngle(index, count)
    ensures RotationAngle(index, count, time + 1.0) - RotationAngle(index, count, time) == 2.0 * Pi * RotationSpeed
  {
  }

  /** Satellite names differ from each other and from the central name. */
  lemma NamesDistinct(i: nat, j: nat)
    ensures SatelliteName(i) != CentralName
    ensures SatelliteName(i) == SatelliteName(j) ==> i == j
  {
    assert |SatelliteName(i)| > |CentralName|;
    if SatelliteName(i) == SatelliteName(j) {
      var k := |CentralName| + 1;
      assert SatelliteName(i)[k..] == Decimal.Show(i);
      assert SatelliteName(j)[k..] == Decimal.Show(j);
      Decimal.ShowInjective(i, j);
    }
  }

  // ---------------------------------------------------------------------
  // Overwriting a node found by name

  /** `if let node = root.nodeNamedRecursive(name) { node.modelMatrix = m }`. */
  function SetNamed(find: Finder, root: Node, name: string, m: Transform): Node
    requires IsFinder(find)
  {
    assert Finds(root, name, find(root, name));
    match find(root, name)
    case None => root
    case Some(p) => SetMatrixAt(root, p, m)
  }

  /** Overwriting a node found by name keeps the tree's shape. */
  lemma SetNamedShape(find: Finder, root: Node, name: string, m: Transform)
    requires IsFinder(find)
    ensures SameShape(SetNamed(find, root, name, m), root)
  {
    assert Finds(root, name, find(root, name));
    match find(root, name)
    case None => SameShapeReflexive(root);
    case Some(p) => SetMatrixAtShape(root, p, m);
  }

  /** Only the node the lookup returns changes, to `m`; every other node,
      whatever its name, keeps its matrix. The returned node carries `name`. */
  lemma SetNamedOnly(find: Finder, root: Node, name: string, m: Transform, q: Path)
    requires IsFinder(find) && ValidPath(root, q)
    ensures ValidPath(SetNamed(find, root, name, m), q)
    ensures NodeAt(SetNamed(find, root, name, m), q).modelMatrix
         == if find(root, name) == Some(q) then m else NodeAt(root, q).modelMatrix
    ensures find(root, name) == Some(q) ==> NodeAt(root, q).name == name
  {
    assert Finds(root, name, find(root, name));
    match find(root, name)
    case None =>
    case Some(p) => SetMatrixAtMatrix(root, p, m, q);
  }

  /** Some node of `before` named `name` holds `m` at the same path in `after`. */
  ghost predicate Placed(before: Node, after: Node, name: string, m: Transform) {
    exists q :: PlacedAt(before, after, name, m, q)
  }

  ghost predicate PlacedAt(before: Node, after: Node, name: string, m: Transform, q: Path) {
    ValidPath(before, q) && NodeAt(before, q).name == name && ValidPath(after, q) && NodeAt(after, q).modelMatrix == m
  }

  /** When a node named `name` exists, one such node gets `m`. */
  lemma SetNamedReaches(find: Finder, root: Node, name: string, m: Transform)
    requires IsFinder(find) && HasName(root, name)
    ensures Placed(root, SetNamed(find, root, name, m), name, m)
  {
    assert Finds(root, name, find(root, name));
    var p := find(root, name).value;
    SetMatrixAtMatrix(root, p, m, p);
    assert PlacedAt(root, SetNamed(find, root, name, m), name, m, p);
  }

  // ---------------------------------------------------------------------
  // The satellite loop

  /** `for index in from...count`, each iteration animating satellite `index`. */
  function AnimateFrom(find: Finder, root: Node, count: int, time: real, from: int): Node
    requires IsFinder(find) && count >= 1 && from >= 1
    decreases count - from + 1
  {
    if from > count then root
    else AnimateFrom(find, SetNamed(find, root, SatelliteName(from), SatelliteTransform(from, count, time)), count, time, from + 1)
  }

  /** Node name `name` belongs to one of the satellites `from..count`, and
      `m` is that satellite's model matrix. */
  ghost predicate SatelliteMatrix(name: string, m: Transform, count: int, time: real, from: int)
    requires count >= 1
  {
    exists j: nat :: from <= j <= count && j >= 1 && name == SatelliteName(j) && m == SatelliteTransform(j, count, time)
  }

  /** The satellite loop keeps the tree's shape. */
  lemma {:induction false} AnimateFromShape(find: Finder, root: Node, count: int, time: real, from: int)
    requires IsFinder(find) && count >= 1 && from >= 1
    ensures SameShape(AnimateFrom(find, root, count, time, from), root)
    decreases count - from + 1
  {
    if from > count {
      SameShapeReflexive(root);
    } else {
      var mid := SetNamed(find, root, SatelliteName(from), SatelliteTransform(from, count, time));
      SetNamedShape(find, root, SatelliteName(from), SatelliteTransform(from, count, time));
      AnimateFromShape(find, mid, count, time, from + 1);
      SameShapeTransitive(AnimateFrom(find, mid, count, time, from + 1), mid, root);
    }
  }

  /** A node changed by the satellite loop is a satellite `from..count`
      and now holds that satellite's matrix. */
  lemma {:induction false} AnimateFromOnly(find: Finder, root: Node, count: int, time: real, from: int, q: Path)
    requires IsFinder(find) && count >= 1 && from >= 1 && ValidPath(root, q)
    ensures ValidPath(AnimateFrom(find, root, count, time, from), q)
    ensures NodeAt(AnimateFrom(find, root, count, time, from), q).modelMatrix == NodeAt(root, q).modelMatrix ||
      SatelliteMatrix(NodeAt(root, q).name, NodeAt(AnimateFrom(find, root, count, time, from), q).modelMatrix, count, time, from)
    decreases count - from + 1
  {
    if from <= count {
      var m := SatelliteTransform(from, count, time);
      var mid := SetNamed(find, root, SatelliteName(from), m);
      var r := AnimateFrom(find, mid, count, time, from + 1);
      SetNamedShape(find, root, SatelliteName(from), m);
      SetNamedOnly(find, root, SatelliteName(from), m, q);
      AnimateFromOnly(find, mid, count, time, from + 1, q);
      SameShapeNodeAt(mid, root, q);
      if NodeAt(r, q).modelMatrix != NodeAt(mid, q).modelMatrix {
        var j: nat :| from + 1 <= j <= count && j >= 1 && NodeAt(mid, q).name == SatelliteName(j) &&
          NodeAt(r, q).modelMatrix == SatelliteTransform(j, count, time);
        assert SatelliteMatrix(NodeAt(root, q).name, NodeAt(r, q).modelMatrix, count, time, from);
      } else if NodeAt(mid, q).modelMatrix != NodeAt(root, q).modelMatrix {
        assert SatelliteMatrix(NodeAt(root, q).name, NodeAt(r, q).modelMatrix, count, time, from);
      }
    }
  }

  /** Every satellite `from..count` present in the tree is given its matrix
      at one node carrying its name. */
  lemma {:induction false} AnimateFromReaches(find: Finder, root: Node, count: int, time: real, from: int, j: nat)
    requires IsFinder(find) && count >= 1 && from >= 1
    requires from <= j <= count && HasName(root, SatelliteName(j))
    ensures Placed(root, AnimateFrom(find, root, count, time, from), SatelliteName(j), SatelliteTransform(j, count, time))
    decreases count - from + 1
  {
    var m := SatelliteTransform(from, count, time);
    var mid := SetNamed(find, root, SatelliteName(from), m);
    SetNamedShape(find, root, SatelliteName(from), m);
    if j == from {
      SetNamedReaches(find, root, SatelliteName(from), m);
      var q :| PlacedAt(root, mid, SatelliteName(from), m, q);
      LaterSatellitesKeep(find, root, mid, count, time, from, q);
    } else {
      SameShapeHasName(mid, root, SatelliteName(j));
      AnimateFromReaches(find, mid, count, time, from + 1, j);
      var r := AnimateFrom(find, mid, count, time, from + 1);
      var q :| PlacedAt(mid, r, SatelliteName(j), SatelliteTransform(j, count, time), q);
      SameShapeSymmetric(mid, root);
      SameShapeNodeAt(mid, root, q);
      assert PlacedAt(root, r, SatelliteName(j), SatelliteTransform(j, count, time), q);
    }
  }

  /** Satellite `from`, once placed, is not overwritten by later iterations. */
  lemma LaterSatellitesKeep(find: Finder, root: Node, mid: Node, count: int, time: real, from: int, q: Path)
    requires IsFinder(find) && count >= 1 && 1 <= from <= count
    requires mid == SetNamed(find, root, SatelliteName(from), SatelliteTransform(from, count, time))
    requires PlacedAt(root, mid, SatelliteName(from), SatelliteTransform(from, count, time), q)
    ensures PlacedAt(root, AnimateFrom(find, root, count, time, from), SatelliteName(from), SatelliteTransform(from, count, time), q)
  {
    var r := AnimateFrom(find, mid, count, time, from + 1);
    assert r == AnimateFrom(find, root, count, time, from);
    SetNamedShape(find, root, SatelliteName(from), SatelliteTransform(from, count, time));
    SameShapeNodeAt(mid, root, q);
    AnimateFromOnly(find, mid, count, time, from + 1, q);
    if NodeAt(r, q).modelMatrix != NodeAt(mid, q).modelMatrix {
      var k: nat :| from + 1 <= k <= count && k >= 1 && NodeAt(mid, q).name == SatelliteName(k) &&
        NodeAt(r, q).modelMatrix == SatelliteTransform(k, count, time);
      NamesDistinct(from, k);
      assert false;
    }
  }

  /** The model matrix of the node at `q` differs between `before` and `after`. */
  ghost predicate Changed(before: Node, after: Node, q: Path) {
    ValidPath(before, q) && ValidPath(after, q) && NodeAt(after, q).modelMatrix != NodeAt(before, q).modelMatrix
  }

  /** The iterations `from..count` never change the central node, nor a
      node named after a satellite `k` below `from`. */
  lemma LaterSatellitesSkip(find: Finder, root: Node, count: int, time: real, from: int, q: Path, k: nat)
    requires IsFinder(find) && count >= 1 && from >= 1 && k < from && ValidPath(root, q)
    requires NodeAt(root, q).name == SatelliteName(k) || NodeAt(root, q).name == CentralName
    ensures !Changed(root, AnimateFrom(find, root, count, time, from), q)
  {
    var r := AnimateFrom(find, root, count, time, from);
    AnimateFromOnly(find, root, count, time, from, q);
    if Changed(root, r, q) {
      var j: nat :| from <= j <= count && j >= 1 && NodeAt(root, q).name == SatelliteName(j) &&
        NodeAt(r, q).modelMatrix == SatelliteTransform(j, count, time);
      NamesDistinct(j, k);
      assert false;
    }
  }

  /** The satellite loop changes at most one node of each name: each
      iteration overwrites only the node its lookup returns, and distinct
      iterations look up distinct names. */
  lemma {:induction false} AnimateFromOnePerName(find: Finder, root: Node, count: int, time: real, from: int,
                                                 q1: Path, q2: Path)
    requires IsFinder(find) && count >= 1 && from >= 1
    requires ValidPath(root, q1) && ValidPath(root, q2) && q1 != q2
    requires NodeAt(root, q1).name == NodeAt(root, q2).name
    ensures var r := AnimateFrom(find, root, count, time, from);
      !(Changed(root, r, q1) && Changed(root, r, q2))
    decreases count - from + 1
  {
    if from <= count {
      var name := SatelliteName(from);
      var m := SatelliteTransform(from, count, time);
      var mid := SetNamed(find, root, name, m);
      var r := AnimateFrom(find, mid, count, time, from + 1);
      SetNamedShape(find, root, name, m);
      SetNamedOnly(find, root, name, m, q1);
      SetNamedOnly(find, root, name, m, q2);
      SameShapeNodeAt(mid, root, q1);
      SameShapeNodeAt(mid, root, q2);
      if NodeAt(root, q1).name == name {
        LaterSatellitesSkip(find, mid, count, time, from + 1, q1, from);
        LaterSatellitesSkip(find, mid, count, time, from + 1, q2, from);
      } else {
        AnimateFromOnePerName(find, mid, count, time, from + 1, q1, q2);
      }
    }
  }

  // ---------------------------------------------------------------------
  // One animation tick

  /** `Scene.update(time:aspectRatio:pan:zoomIn:zoomOut:)`. The satellite
      loop runs over `1...childNodeCount`, which traps when the count is
      below 1. `zoomIn` and `zoomOut` are accepted and never read. */
  function Update(s: Scene, find: Finder, childNodeCount: int, time: real, aspectRatio: real,
                  pan: bool, zoomIn: bool, zoomOut: bool): (r: Result<Scene, Fault>)
    requires IsFinder(find)
    ensures r.Success? <==> childNodeCount >= 1
    ensures r.Failure? ==> r.error == EmptySatelliteRange
    ensures r.Success? ==>
      && r.value.camera.cameraAngles == (if pan then Vec2(s.camera.cameraAngles.x + OrbitSensitivity * s.camera.orbit.y,
                                                          s.camera.cameraAngles.y + OrbitSensitivity * s.camera.orbit.x)
                                         else s.camera.cameraAngles)
      && r.value.camera.orbit == s.camera.orbit
      && r.value.camera.cameraWorldPosition == s.camera.cameraWorldPosition
      && r.value.viewMatrix == ViewMatrix(r.value.camera)
      && r.value.projectionMatrix == [Perspective(Pi / 6.0, aspectRatio, 0.1, 100.0)]
      && r.value.ambientLightColor == s.ambientLightColor
      && r.value.lights == s.lights
  {
    var camera := if pan then UpdateAngles(s.camera) else s.camera;
    var central := SetNamed(find, s.rootNode, CentralName, CentralTransform);
    if childNodeCount < 1 then Failure(EmptySatelliteRange)
    else
      Success(s.(camera := camera,
                 viewMatrix := ViewMatrix(camera),
                 projectionMatrix := ProjectionMatrix(aspectRatio),
                 rootNode := AnimateFrom(find, central, childNodeCount, time, 1)))
  }

  /** The tree `update` leaves: the central node set, then the satellite loop. */
  lemma UpdateRoot(s: Scene, find: Finder, childNodeCount: int, time: real, aspectRatio: real,
                   pan: bool, zoomIn: bool, zoomOut: bool)
    requires IsFinder(find) && childNodeCount >= 1
    ensures Update(s, find, childNodeCount, time, aspectRatio, pan, zoomIn, zoomOut).value.rootNode
         == AnimateFrom(find, SetNamed(find, s.rootNode, CentralName, CentralTransform), childNodeCount, time, 1)
  {
  }

  /** A tree without satellite nodes is left as it is by the satellite loop. */
  lemma {:induction false} AnimateFromAbsent(find: Finder, root: Node, count: int, time: real, from: int)
    requires IsFinder(find) && count >= 1 && from >= 1
    requires forall j: nat :: from <= j <= count ==> !HasName(root, SatelliteName(j))
    ensures AnimateFrom(find, root, count, time, from) == root
    decreases count - from + 1
  {
    if from <= count {
      assert Finds(root, SatelliteName(from), find(root, SatelliteName(from)));
      AnimateFromAbsent(find, root, count, time, from + 1);
    }
  }

  /** `m` is the matrix `update` gives to a node named `name`. */
  ghost predicate AnimatedMatrix(name: string, m: Transform, childNodeCount: int, time: real)
    requires childNodeCount >= 1
  {
    (name == CentralName && m == CentralTransform) || SatelliteMatrix(name, m, childNodeCount, time, 1)
  }

  /** `update` changes model matrices only: names, parents, meshes,
      materials and the children lists are as they were. */
  lemma UpdateKeepsShape(s: Scene, find: Finder, childNodeCount: int, time: real, aspectRatio: real,
                         pan: bool, zoomIn: bool, zoomOut: bool)
    requires IsFinder(find) && childNodeCount >= 1
    ensures SameShape(Update(s, find, childNodeCount, time, aspectRatio, pan, zoomIn, zoomOut).value.rootNode, s.rootNode)
  {
    var central := SetNamed(find, s.rootNode, CentralName, CentralTransform);
    SetNamedShape(find, s.rootNode, CentralName, CentralTransform);
    AnimateFromShape(find, central, childNodeCount, time, 1);
    SameShapeTransitive(AnimateFrom(find, central, childNodeCount, time, 1), central, s.rootNode);
  }

  /** A node whose model matrix `update` changes is the central node or a
      satellite `1..childNodeCount`, and now holds that node's matrix; a
      changed node named "formica_rufa" is the one the lookup returns. */
  lemma UpdateChangesOnlyTargets(s: Scene, find: Finder, childNodeCount: int, time: real, aspectRatio: real,
                                 pan: bool, zoomIn: bool, zoomOut: bool, q: Path)
    requires IsFinder(find) && childNodeCount >= 1 && ValidPath(s.rootNode, q)
    ensures var after := Update(s, find, childNodeCount, time, aspectRatio, pan, zoomIn, zoomOut).value.rootNode;
      && ValidPath(after, q)
      && (NodeAt(after, q).modelMatrix == NodeAt(s.rootNode, q).modelMatrix ||
          AnimatedMatrix(NodeAt(s.rootNode, q).name, NodeAt(after, q).modelMatrix, childNodeCount, time))
      && (Changed(s.rootNode, after, q) && NodeAt(s.rootNode, q).name == CentralName ==>
            find(s.rootNode, CentralName) == Some(q))
  {
    var central := SetNamed(find, s.rootNode, CentralName, CentralTransform);
    var after := AnimateFrom(find, central, childNodeCount, time, 1);
    SetNamedShape(find, s.rootNode, CentralName, CentralTransform);
    SetNamedOnly(find, s.rootNode, CentralName, CentralTransform, q);
    SameShapeNodeAt(central, s.rootNode, q);
    AnimateFromOnly(find, central, childNodeCount, time, 1, q);
    if NodeAt(after, q).modelMatrix != NodeAt(central, q).modelMatrix {
      assert SatelliteMatrix(NodeAt(s.rootNode, q).name, NodeAt(after, q).modelMatrix, childNodeCount, time, 1);
    }
    if NodeAt(s.rootNode, q).name == CentralName {
      LaterSatellitesSkip(find, central, childNodeCount, time, 1, q, 0);
    }
  }

  /** `update` changes at most one node of each name: two distinct nodes
      with the same name never both change. */
  lemma UpdateChangesOneNodePerName(s: Scene, find: Finder, childNodeCount: int, time: real, aspectRatio: real,
                                    pan: bool, zoomIn: bool, zoomOut: bool, q1: Path, q2: Path)
    requires IsFinder(find) && childNodeCount >= 1
    requires ValidPath(s.rootNode, q1) && ValidPath(s.rootNode, q2) && q1 != q2
    requires NodeAt(s.rootNode, q1).name == NodeAt(s.rootNode, q2).name
    ensures var after := Update(s, find, childNodeCount, time, aspectRatio, pan, zoomIn, zoomOut).value.rootNode;
      !(Changed(s.rootNode, after, q1) && Changed(s.rootNode, after, q2))
  {
    var central := SetNamed(find, s.rootNode, CentralName, CentralTransform);
    SetNamedShape(find, s.rootNode, CentralName, CentralTransform);
    SetNamedOnly(find, s.rootNode, CentralName, CentralTransform, q1);
    SetNamedOnly(find, s.rootNode, CentralName, CentralTransform, q2);
    SameShapeNodeAt(central, s.rootNode, q1);
    SameShapeNodeAt(central, s.rootNode, q2);
    if NodeAt(s.rootNode, q1).name == CentralName {
      LaterSatellitesSkip(find, central, childNodeCount, time, 1, q1, 0);
      LaterSatellitesSkip(find, central, childNodeCount, time, 1, q2, 0);
    } else {
      AnimateFromOnePerName(find, central, childNodeCount, time, 1, q1, q2);
    }
  }

  /** If the tree holds a node named "formica_rufa", `update` gives the one
      the lookup returns the uniform scale 0.5. */
  lemma UpdatePlacesCentral(s: Scene, find: Finder, childNodeCount: int, time: real, aspectRatio: real,
                            pan: bool, zoomIn: bool, zoomOut: bool)
    requires IsFinder(find) && childNodeCount >= 1 && HasName(s.rootNode, CentralName)
    ensures find(s.rootNode, CentralName).Some?
    ensures PlacedAt(s.rootNode, Update(s, find, childNodeCount, time, aspectRatio, pan, zoomIn, zoomOut).value.rootNode,
                     CentralName, CentralTransform, find(s.rootNode, CentralName).value)
  {
    assert Finds(s.rootNode, CentralName, find(s.rootNode, CentralName));
    var q := find(s.rootNode, CentralName).value;
    var central := SetNamed(find, s.rootNode, CentralName, CentralTransform);
    var after := AnimateFrom(find, central, childNodeCount, time, 1);
    SetNamedShape(find, s.rootNode, CentralName, CentralTransform);
    SetNamedOnly(find, s.rootNode, CentralName, CentralTransform, q);
    SameShapeNodeAt(central, s.rootNode, q);
    AnimateFromOnly(find, central, childNodeCount, time, 1, q);
    LaterSatellitesSkip(find, central, childNodeCount, time, 1, q, 0);
    assert PlacedAt(s.rootNode, after, CentralName, CentralTransform, q);
  }

  /** If the tree holds a node named "formica_rufa_<i>", with `i` in
      `1..childNodeCount`, `update` gives one such node satellite `i`'s matrix. */
  lemma UpdatePlacesSatellite(s: Scene, find: Finder, childNodeCount: int, time: real, aspectRatio: real,
                              pan: bool, zoomIn: bool, zoomOut: bool, i: nat)
    requires IsFinder(find) && 1 <= i <= childNodeCount && HasName(s.rootNode, SatelliteName(i))
    ensures Placed(s.rootNode, Update(s, find, childNodeCount, time, aspectRatio, pan, zoomIn, zoomOut).value.rootNode,
                   SatelliteName(i), SatelliteTransform(i, childNodeCount, time))
  {
    var central := SetNamed(find, s.rootNode, CentralName, CentralTransform);
    var after := AnimateFrom(find, central, childNodeCount, time, 1);
    SetNamedShape(find, s.rootNode, CentralName, CentralTransform);
    SameShapeHasName(central, s.rootNode, SatelliteName(i));
    AnimateFromReaches(find, central, childNodeCount, time, 1, i);
    var q :| PlacedAt(central, after, SatelliteName(i), SatelliteTransform(i, childNodeCount, time), q);
    SameShapeSymmetric(central, s.rootNode);
    SameShapeNodeAt(central, s.rootNode, q);
    assert PlacedAt(s.rootNode, after, SatelliteName(i), SatelliteTransform(i, childNodeCount, time), q);
  }

  /** The zoom flags have no effect. */
  lemma UpdateIgnoresZoom(s: Scene, find: Finder, childNodeCount: int, time: real, aspectRatio: real,
                          pan: bool, zoomIn: bool, zoomOut: bool, zoomIn': bool, zoomOut': bool)
    requires IsFinder(find)
    ensures Update(s, find, childNodeCount, time, aspectRatio, pan, zoomIn, zoomOut)
         == Update(s, find, childNodeCount, time, aspectRatio, pan, zoomIn', zoomOut')
  {
  }

  // ---------------------------------------------------------------------
  // Orbiting over many frames

  /** One frame of input: the drag offset last recorded with `updateOrbit`,
      and the arguments of that frame's `update`. */
  datatype Tick = Tick(orbit: Vec2, time: real, aspectRatio: real, pan: bool)

  /** Record each tick's drag offset, then animate. */
  function Run(s: Scene, find: Finder, childNodeCount: int, ticks: seq<Tick>): Scene
    requires IsFinder(find) && childNodeCount >= 1
    decreases |ticks|
  {
    if ticks == [] then s
    else
      var t := ticks[0];
      Run(Update(UpdateOrbit(s, t.orbit), find, childNodeCount, t.time, t.aspectRatio, t.pan, false, false).value,
          find, childNodeCount, ticks[1..])
  }

  /** The sum of the drag offsets of the panning ticks. */
  function PanSum(ticks: seq<Tick>): Vec2
    decreases |ticks|
  {
    if ticks == [] then Vec2(0.0, 0.0)
    else
      var rest := PanSum(ticks[1..]);
      if ticks[0].pan then Vec2(ticks[0].orbit.x + rest.x, ticks[0].orbit.y + rest.y) else rest
  }

  /** After a run of frames the camera angles have moved by the sensitivity
      times the summed offsets of the panning frames, vertical offsets into
      the first angle and horizontal ones into the second; offsets of frames
      that do not pan leave no trace. */
  lemma {:induction false} OrbitAccumulates(s: Scene, find: Finder, childNodeCount: int, ticks: seq<Tick>)
    requires IsFinder(find) && childNodeCount >= 1
    ensures Run(s, find, childNodeCount, ticks).camera.cameraAngles ==
      Vec2(s.camera.cameraAngles.x + OrbitSensitivity * PanSum(ticks).y,
           s.camera.cameraAngles.y + OrbitSensitivity * PanSum(ticks).x)
    ensures Run(s, find, childNodeCount, ticks).camera.cameraWorldPosition == s.camera.cameraWorldPosition
    decreases |ticks|
  {
    if ticks != [] {
      var t := ticks[0];
      var next := Update(UpdateOrbit(s, t.orbit), find, childNodeCount, t.time, t.aspectRatio, t.pan, false, false).value;
      OrbitAccumulates(next, find, childNodeCount, ticks[1..]);
    }
  }
}

=== FILE: Decimal.dfy ===
/** Decimal rendering of a natural number, as Swift's string interpolation
    `"\(index)"` prints a non-negative `Int`, and its inverse. The renderer
    names its satellite nodes with it, and the animation relies on distinct
    indices giving distinct names. */
module Decimal {

  predicate IsDigit(c: char) {
    '0' <= c <= '9'
  }

  function DigitChar(d: nat): (c: char)
    requires d < 10
    ensures IsDigit(c) && c as int - '0' as int == d
  {
    ('0' as int + d) as char
  }

  function DigitValue(c: char): (d: nat)
    requires IsDigit(c)
    ensures d < 10 && DigitChar(d) == c
  {
    c as int - '0' as int
  }

  /** Shortest decimal numeral of `n`: no sign, no leading zero. */
  function Show(n: nat): (s: string)
    ensures |s| >= 1
    ensures forall k :: 0 <= k < |s| ==> IsDigit(s[k])
    ensures |s| > 1 ==> s[0] != '0'
  {
    if n < 10 then [DigitChar(n)] else Show(n / 10) + [DigitChar(n % 10)]
  }

  /** The value of a numeral made of digits, most significant first. */
  function Parse(s: string): (n: nat)
    requires forall k :: 0 <= k < |s| ==> IsDigit(s[k])
  {
    if s == [] then 0 else 10 * Parse(s[..|s| - 1]) + DigitValue(s[|s| - 1])
  }

  /** Reading back a rendered number gives the number. */
  lemma {:induction false} ParseShow(n: nat)
    ensures Parse(Show(n)) == n
  {
    var s := Show(n);
    if n < 10 {
      assert s[..|s| - 1] == [];
    } else {
      assert s[..|s| - 1] == Show(n / 10);
      ParseShow(n / 10);
    }
  }

  /** Distinct numbers render as distinct numerals. */
  lemma ShowInjective(i: nat, j: nat)
    requires Show(i) == Show(j)
    ensures i == j
  {
    ParseShow(i);
    ParseShow(j);
  }
}

=== FILE: Entities.dfy ===
/** The plain records of the scene: lights, materials and the externally
    owned mesh and texture resources that nodes point at. GPU objects are
    opaque handles; only what the traversal reads from them is kept. */
module Entities {
  import opened Wrappers
  import opened Transform

  /** A point light; the scene keeps them globally, not on nodes. */
  datatype Light = Light(worldPosition: Vec3, color: Vec3)

  /** An opaque `MTLTexture`. */
  datatype Texture = Texture(handle: nat)

  /** An `MTKMeshBuffer`: a GPU buffer and the byte offset of the data in it. */
  datatype MeshBuffer = MeshBuffer(buffer: nat, offset: nat)

  /** An `MTKSubmesh`: one indexed-primitive range. Primitive and index types
      are opaque codes. */
  datatype Submesh = Submesh(primitiveType: nat, indexCount: nat, indexType: nat, indexBuffer: MeshBuffer)

  /** An `MTKMesh`: its vertex buffers and its submeshes, in order. */
  datatype Mesh = Mesh(vertexBuffers: seq<MeshBuffer>, submeshes: seq<Submesh>)

  /** Per-node shading parameters. */
  datatype Material = Material(specularColor: Vec3, specularPower: real, baseColorTexture: Option<Texture>)

  /** `Material()`: white specular colour, specular power 1, no texture. */
  function DefaultMaterial(): (m: Material)
    ensures m.specularColor == Vec3(1.0, 1.0, 1.0)
    ensures m.specularPower == 1.0
    ensures m.baseColorTexture.None?
  {
    Material(Vec3(1.0, 1.0, 1.0), 1.0, None)
  }
}

=== FILE: Lookup.dfy ===
/** Lookup of a node by name, Swift's `nodeNamedRecursive`. Its body is not
    part of this model, so the animation takes the lookup as a parameter and
    relies only on its contract: it returns a node of the subtree with
    exactly that name, or nothing when there is none. Which of several
    same-named nodes it picks is left open. A node is returned as its path,
    so that the caller can overwrite it in place. */
module Lookup {
  import opened Wrappers
  import opened Nodes

  type Finder = (Node, string) -> Option<Path>

  /** `r` is an acceptable answer to looking up `name` below `t`. */
  ghost predicate Finds(t: Node, name: string, r: Option<Path>) {
    match r
    case Some(p) => ValidPath(t, p) && NodeAt(t, p).name == name
    case None => !HasName(t, name)
  }

  /** `find` keeps the lookup contract on every tree and name. */
  ghost predicate IsFinder(find: Finder) {
    forall t, name :: Finds(t, name, find(t, name))
  }

  /** One lookup meeting the contract: depth-first, the node itself first. */
  function PreorderFind(t: Node, name: string): Option<Path>
    decreases t, |t.children| + 1
  {
    if t.name == name then Some([]) else FindInChildren(t, 0, name)
  }

  /** Lookup below the children `t.children[i..]`. */
  function FindInChildren(t: Node, i: nat, name: string): Option<Path>
    requires i <= |t.children|
    decreases t, |t.children| - i
  {
    if i == |t.children| then None
    else match PreorderFind(t.children[i], name)
      case Some(p) => Some([i] + p)
      case None => FindInChildren(t, i + 1, name)
  }

  lemma {:induction false} PreorderFindFinds(t: Node, name: string)
    ensures Finds(t, name, PreorderFind(t, name))
    decreases t, |t.children| + 1
  {
    if t.name == name {
      assert ValidPath(t, []);
    } else {
      FindInChildrenFinds(t, 0, name);
      if PreorderFind(t, name).None? && HasName(t, name) {
        var p :| ValidPath(t, p) && NodeAt(t, p).name == name;
        assert ValidPath(t.children[p[0]], p[1..]) && NodeAt(t.children[p[0]], p[1..]).name == name;
        assert false;
      }
    }
  }

  lemma {:induction false} FindInChildrenFinds(t: Node, i: nat, name: string)
    requires i <= |t.children|
    ensures match FindInChildren(t, i, name)
      case Some(p) => p != [] && ValidPath(t, p) && NodeAt(t, p).name == name
      case None => forall j :: i <= j < |t.children| ==> !HasName(t.children[j], name)
    decreases t, |t.children| - i
  {
    if i < |t.children| {
      PreorderFindFinds(t.children[i], name);
      match PreorderFind(t.children[i], name)
      case Some(p) =>
        assert ([i] + p)[1..] == p;
      case None =>
        FindInChildrenFinds(t, i + 1, name);
    }
  }

  /** The contract can be met: `PreorderFind` meets it. */
  lemma PreorderFindIsFinder()
    ensures IsFinder(PreorderFind)
  {
    forall t, name ensures Finds(t, name, PreorderFind(t, name)) {
      PreorderFindFinds(t, name);
    }
  }
}

=== FILE: Node.dfy ===
/** The scene-graph node and the structural vocabulary used to talk about a
    tree of them: paths of child indices, the node a path leads to, the
    product of local transforms along a path, the pre-order enumeration of
    all paths, and "same tree up to model matrices". */
module Nodes {
  import opened Wrappers
  import opened Transform
  import opened Entities

  /** A tree element. `parent` stands for Swift's `weak var parent`: a
      non-owning handle (the parent's name) that ownership never follows;
      `children` own their subtrees and are traversed in order. */
  datatype Node = Node(
    name: string,
    parent: Option<string>,
    children: seq<Node>,
    modelMatrix: Transform,
    mesh: Option<Mesh>,
    material: Material)

  /** A node is addressed from a root by the child index taken at each level. */
  type Path = seq<nat>

  predicate ValidPath(t: Node, p: Path)
    decreases p
  {
    p == [] || (p[0] < |t.children| && ValidPath(t.children[p[0]], p[1..]))
  }

  function NodeAt(t: Node, p: Path): Node
    requires ValidPath(t, p)
    decreases p
  {
    if p == [] then t else NodeAt(t.children[p[0]], p[1..])
  }

  /** The product of the local transforms from `t` down to the node at `p`,
      root first: the node's transform relative to the parent of `t`. */
  function PathProduct(t: Node, p: Path): Transform
    requires ValidPath(t, p)
    decreases p
  {
    if p == [] then t.modelMatrix else Mul(t.modelMatrix, PathProduct(t.children[p[0]], p[1..]))
  }

  /** True iff some node of the subtree of `t` (itself included) is named `name`. */
  ghost predicate HasName(t: Node, name: string) {
    exists p :: ValidPath(t, p) && NodeAt(t, p).name == name
  }

  /** `Node(name:)`. The new node is alone in its subtree, is the only node
      with its name there, has the identity transform, no mesh, a default
      material and no parent. */
  function NewNode(name: string): (n: Node)
    ensures n.name == name && n.parent.None?
    ensures n.children == [] && n.modelMatrix == Identity
    ensures n.mesh.None? && n.material == DefaultMaterial()
    ensures forall p :: ValidPath(n, p) <==> p == []
    ensures forall other :: HasName(n, other) <==> other == name
  {
    var n := Node(name, None, [], Identity, None, DefaultMaterial());
    assert ValidPath(n, []) && NodeAt(n, []).name == name;
    n
  }

  // ---------------------------------------------------------------------
  // Same tree up to model matrices

  /** `a` and `b` differ at most in their nodes' model matrices. */
  predicate SameShape(a: Node, b: Node)
    decreases a
  {
    && a.name == b.name
    && a.parent == b.parent
    && a.mesh == b.mesh
    && a.material == b.material
    && |a.children| == |b.children|
    && forall i :: 0 <= i < |a.children| ==> SameShape(a.children[i], b.children[i])
  }

  lemma {:induction false} SameShapeReflexive(a: Node)
    ensures SameShape(a, a)
    decreases a
  {
    forall i | 0 <= i < |a.children| {
      SameShapeReflexive(a.children[i]);
    }
  }

  lemma {:induction false} SameShapeTransitive(a: Node, b: Node, c: Node)
    requires SameShape(a, b) && SameShape(b, c)
    ensures SameShape(a, c)
    decreases a
  {
    forall i | 0 <= i < |a.children| {
      SameShapeTransitive(a.children[i], b.children[i], c.children[i]);
    }
  }

  /** Trees of the same shape have the same paths, leading to nodes of the same shape. */
  lemma {:induction false} SameShapeNodeAt(a: Node, b: Node, p: Path)
    requires SameShape(a, b) && ValidPath(a, p)
    ensures ValidPath(b, p) && SameShape(NodeAt(a, p), NodeAt(b, p))
    decreases p
  {
    if p != [] {
      SameShapeNodeAt(a.children[p[0]], b.children[p[0]], p[1..]);
    }
  }

  lemma SameShapeHasName(a: Node, b: Node, name: string)
    requires SameShape(a, b)
    ensures HasName(a, name) <==> HasName(b, name)
  {
    if HasName(a, name) {
      var p :| ValidPath(a, p) && NodeAt(a, p).name == name;
      SameShapeNodeAt(a, b, p);
    }
    if HasName(b, name) {
      var p :| ValidPath(b, p) && NodeAt(b, p).name == name;
      SameShapeSymmetric(a, b);
      SameShapeNodeAt(b, a, p);
    }
  }

  lemma {:induction false} SameShapeSymmetric(a: Node, b: Node)
    requires SameShape(a, b)
    ensures SameShape(b, a)
    decreases a
  {
    forall i | 0 <= i < |b.children| {
      SameShapeSymmetric(a.children[i], b.children[i]);
    }
  }

  // ---------------------------------------------------------------------
  // Overwriting one node's model matrix

  /** The tree with the model matrix of the node at `p` replaced by `m`:
      Swift's `node.modelMatrix = m` on a node reached through the tree. */
  function SetMatrixAt(t: Node, p: Path, m: Transform): (r: Node)
    requires ValidPath(t, p)
    ensures |r.children| == |t.children| && r.name == t.name
    decreases p
  {
    if p == [] then t.(modelMatrix := m)
    else t.(children := t.children[p[0] := SetMatrixAt(t.children[p[0]], p[1..], m)])
  }

  /** Overwriting a model matrix leaves every other field, and the tree
      structure, as it was. */
  lemma {:induction false} SetMatrixAtShape(t: Node, p: Path, m: Transform)
    requires ValidPath(t, p)
    ensures SameShape(SetMatrixAt(t, p, m), t)
    decreases p
  {
    var r := SetMatrixAt(t, p, m);
    forall i | 0 <= i < |r.children| ensures SameShape(r.children[i], t.children[i]) {
      if p != [] && i == p[0] {
        SetMatrixAtShape(t.children[i], p[1..], m);
      } else {
        SameShapeReflexive(t.children[i]);
      }
    }
  }

  /** The node at `p` gets `m`; the node at every other path keeps its matrix. */
  lemma {:induction false} SetMatrixAtMatrix(t: Node, p: Path, m: Transform, q: Path)
    requires ValidPath(t, p) && ValidPath(t, q)
    ensures ValidPath(SetMatrixAt(t, p, m), q)
    ensures NodeAt(SetMatrixAt(t, p, m), q).modelMatrix == (if q == p then m else NodeAt(t, q).modelMatrix)
    decreases q
  {
    var r := SetMatrixAt(t, p, m);
    if q == [] {
    } else if p == [] || p[0] != q[0] {
      assert r.children[q[0]] == t.children[q[0]];
    } else {
      SetMatrixAtMatrix(t.children[p[0]], p[1..], m, q[1..]);
      assert (q[1..] == p[1..]) == (q == p) by {
        if q[1..] == p[1..] {
          assert q == [q[0]] + q[1..] && p == [p[0]] + p[1..];
        }
      }
    }
  }
}

=== FILE: Preorder.dfy ===
/** The pre-order enumeration of a tree's nodes, by path. Pre-order with
    children taken in array order is exactly the lexicographic order on
    paths, and that is how the enumeration is characterised. */
module Preorder {
  import opened Nodes

  /** `[i] + p` for every `p` of `ps`, in order. */
  function Under(i: nat, ps: seq<Path>): (r: seq<Path>)
    ensures |r| == |ps|
    ensures forall k :: 0 <= k < |ps| ==> r[k] == [i] + ps[k]
  {
    seq(|ps|, k requires 0 <= k < |ps| => [i] + ps[k])
  }

  /** Every path of the subtree of `t`, in pre-order. */
  function Paths(t: Node): seq<Path>
    decreases t
  {
    [[]] + ChildPaths(t.children, 0)
  }

  /** The paths below the nodes `cs`, which sit at child indices `offset`,
      `offset + 1`, ... of their parent. */
  function ChildPaths(cs: seq<Node>, offset: nat): seq<Path>
    decreases cs
  {
    if cs == [] then [] else Under(offset, Paths(cs[0])) + ChildPaths(cs[1..], offset + 1)
  }

  /** `p` comes strictly before `q` in pre-order: `p` is a proper prefix of
      `q`, or at the first index where they differ `p` takes an earlier child. */
  predicate Before(p: Path, q: Path)
    decreases p
  {
    q != [] && (p == [] || p[0] < q[0] || (p[0] == q[0] && Before(p[1..], q[1..])))
  }

  predicate Ordered(ps: seq<Path>) {
    forall j, k :: 0 <= j < k < |ps| ==> Before(ps[j], ps[k])
  }

  // ---------------------------------------------------------------------
  // The enumeration lists valid paths only

  /** Each path below `cs` starts with the index of one of them and continues
      with a path of that child's subtree. */
  lemma {:induction false} ChildPathsShape(cs: seq<Node>, offset: nat, k: nat)
    requires k < |ChildPaths(cs, offset)|
    ensures var q := ChildPaths(cs, offset)[k];
      q != [] && offset <= q[0] < offset + |cs| && q[1..] in Paths(cs[q[0] - offset])
    decreases cs
  {
    var u := Under(offset, Paths(cs[0]));
    if k < |u| {
      assert ChildPaths(cs, offset)[k] == [offset] + Paths(cs[0])[k];
      assert ([offset] + Paths(cs[0])[k])[1..] == Paths(cs[0])[k];
    } else {
      ChildPathsShape(cs[1..], offset + 1, k - |u|);
      assert ChildPaths(cs, offset)[k] == ChildPaths(cs[1..], offset + 1)[k - |u|];
    }
  }

  /** Every enumerated path leads to a node. */
  lemma {:induction false} PathsValid(t: Node, p: Path)
    requires p in Paths(t)
    ensures ValidPath(t, p)
    decreases t
  {
    if p != [] {
      var k :| 0 <= k < |Paths(t)| && Paths(t)[k] == p;
      ChildPathsShape(t.children, 0, k - 1);
      assert p == ChildPaths(t.children, 0)[k - 1];
      PathsValid(t.children[p[0]], p[1..]);
    }
  }

  // ---------------------------------------------------------------------
  // The enumeration lists every valid path

  lemma {:induction false} ChildPathsComplete(cs: seq<Node>, offset: nat, i: nat, p: Path)
    requires i < |cs| && p in Paths(cs[i])
    ensures [offset + i] + p in ChildPaths(cs, offset)
    decreases cs
  {
    if i == 0 {
      var k :| 0 <= k < |Paths(cs[0])| && Paths(cs[0])[k] == p;
      assert Under(offset, Paths(cs[0]))[k] == [offset] + p;
    } else {
      ChildPathsComplete(cs[1..], offset + 1, i - 1, p);
    }
  }

  /** Every node of the tree is enumerated. */
  lemma {:induction false} PathsComplete(t: Node, p: Path)
    requires ValidPath(t, p)
    ensures p in Paths(t)
    decreases t
  {
    if p != [] {
      PathsComplete(t.children[p[0]], p[1..]);
      ChildPathsComplete(t.children, 0, p[0], p[1..]);
      assert [0 + p[0]] + p[1..] == p;
    }
  }

  // ---------------------------------------------------------------------
  // The enumeration is in pre-order

  lemma {:induction false} UnderOrdered(i: nat, ps: seq<Path>)
    requires Ordered(ps)
    ensures Ordered(Under(i, ps))
  {
  }

  /** A path below child `offset` comes before any path below a later child. */
  lemma {:induction false} ChildPathsOrdered(cs: seq<Node>, offset: nat)
    ensures Ordered(ChildPaths(cs, offset))
    decreases cs
  {
    if cs != [] {
      var u := Under(offset, Paths(cs[0]));
      var rest := ChildPaths(cs[1..], offset + 1);
      PathsOrdered(cs[0]);
      UnderOrdered(offset, Paths(cs[0]));
      ChildPathsOrdered(cs[1..], offset + 1);
      var all := u + rest;
      forall j, k | 0 <= j < k < |all| ensures Before(all[j], all[k]) {
        if j < |u| && |u| <= k {
          ChildPathsShape(cs[1..], offset + 1, k - |u|);
          assert all[j][0] == offset && all[k][0] > offset;
        } else if |u| <= j {
          assert all[j] == rest[j - |u|] && all[k] == rest[k - |u|];
        }
      }
    }
  }

  /** A node comes before its descendants, and the subtree of an earlier
      child before that of a later one. */
  lemma {:induction false} PathsOrdered(t: Node)
    ensures Ordered(Paths(t))
    decreases t
  {
    ChildPathsOrdered(t.children, 0);
    var ps := Paths(t);
    forall j, k | 0 <= j < k < |ps| ensures Before(ps[j], ps[k]) {
      if j == 0 {
        ChildPathsShape(t.children, 0, k - 1);
      } else {
        assert ps[j] == ChildPaths(t.children, 0)[j - 1] && ps[k] == ChildPaths(t.children, 0)[k - 1];
      }
    }
  }

  /** The enumeration is exactly the set of paths of the tree, each once, in pre-order. */
  lemma PathsArePreorder(t: Node)
    ensures Paths(t)[0] == []
    ensures forall p :: p in Paths(t) <==> ValidPath(t, p)
    ensures Ordered(Paths(t))
  {
    forall p ensures p in Paths(t) <==> ValidPath(t, p) {
      if p in Paths(t) {
        PathsValid(t, p);
      }
      if ValidPath(t, p) {
        PathsComplete(t, p);
      }
    }
    PathsOrdered(t);
  }
}

=== FILE: Render.dfy ===
/** The scene the renderer builds at start-up and the order of work in
    one frame (`draw(in:)`). GPU objects are reduced
    to the log of encoder commands the frame issues. */
module Render {
  import opened Wrappers
  import opened Transform
  import opened Entities
  import opened Nodes
  import opened Lookup
  import opened Scenes
  import opened Animation
  import opened Preorder
  import opened Traversal

  // ---------------------------------------------------------------------
  // buildScene

  /** The three lights: red, green and blue, in front of the scene. */
  const SceneLights: seq<Light> := [
    Light(Vec3(2.0, 2.0, 2.0), Vec3(1.0, 0.0, 0.0)),
    Light(Vec3(-2.0, 2.0, 2.0), Vec3(0.0, 1.0, 0.0)),
    Light(Vec3(0.0, -2.0, 2.0), Vec3(0.0, 0.0, 1.0))]

  /** The material of the central node: the loaded texture, a grey
      highlight of power 200. */
  function CentralMaterial(texture: Texture): (m: Material)
    ensures m.specularColor == Vec3(0.8, 0.8, 0.8) && m.specularPower == 200.0
    ensures m.baseColorTexture == Some(texture)
  {
    DefaultMaterial().(specularColor := Vec3(0.8, 0.8, 0.8), specularPower := 200.0, baseColorTexture := Some(texture))
  }

  /** `Renderer.buildScene`, given the outcome of asset loading: the first
      mesh of the loaded asset (absent when the asset holds none) and the
      loaded texture. The central node is appended to the root's children
      directly, so its `parent` stays unset. */
  function BuildScene(firstMesh: Option<Mesh>, texture: Texture): (s: Scene)
    ensures s.lights == SceneLights
    ensures s.camera == NewCamera() && s.ambientLightColor == Vec3(0.0, 0.0, 0.0)
    ensures s.rootNode.name == "Root" && s.rootNode.mesh.None? && s.rootNode.modelMatrix == Identity
    ensures |s.rootNode.children| == 1
    ensures var n := s.rootNode.children[0];
      && n.name == CentralName && n.parent.None? && n.children == [] && n.modelMatrix == Identity
      && n.mesh == firstMesh
      && n.material.specularColor == Vec3(0.8, 0.8, 0.8) && n.material.specularPower == 200.0
      && n.material.baseColorTexture == Some(texture)
  {
    var scene := NewScene();
    var node := NewNode(CentralName);
    var scene := scene.(lights := SceneLights);
    var node := node.(mesh := firstMesh, material := CentralMaterial(texture));
    scene.(rootNode := scene.rootNode.(children := scene.rootNode.children + [node]))
  }

  /** The built tree holds two nodes, the root and the central node, and
      drawing it can trap only on a loaded mesh without a vertex buffer:
      the three lights are always there. */
  lemma BuiltSceneDrawable(firstMesh: Option<Mesh>, texture: Texture)
    ensures var root := BuildScene(firstMesh, texture).rootNode;
      forall p :: ValidPath(root, p) <==> p == [] || p == [0]
    ensures TreeOk(BuildScene(firstMesh, texture), BuildScene(firstMesh, texture).rootNode)
        <==> (firstMesh.None? || |firstMesh.value.vertexBuffers| >= 1)
  {
    var s := BuildScene(firstMesh, texture);
    var root := s.rootNode;
    TwoNodePaths(root);
    TreeOkSplit(s, root);
    TreeOkSplit(s, root.children[0]);
  }

  /** A root with one childless child has exactly two paths. */
  lemma TwoNodePaths(root: Node)
    requires |root.children| == 1 && root.children[0].children == []
    ensures forall p :: ValidPath(root, p) <==> p == [] || p == [0]
  {
  }

  // ---------------------------------------------------------------------
  // One frame

  /** The renderer's mutable state: its scene and its time accumulator. */
  datatype RendererState = RendererState(scene: Scene, time: real)

  /** What the view offers this frame, and the input of `update`. */
  datatype FrameEnv = FrameEnv(
    aspectRatio: real,
    preferredFramesPerSecond: int,
    pan: bool,
    zoomIn: bool,
    zoomOut: bool,
    hasRenderPassDescriptor: bool,
    hasDrawable: bool,
    hasCommandEncoder: bool)

  datatype ClearColor = ClearColor(red: real, green: real, blue: real, alpha: real)

  const White: ClearColor := ClearColor(1.0, 1.0, 1.0, 1.0)

  /** The commands a frame sends to the GPU, in order. */
  datatype Command =
    | BeginPass(clearColor: ClearColor)
    | SetDepthStencilState
    | SetFragmentSamplerState(index: nat)
    | SetRenderPipelineState
    | DrawIndexed(draw: DrawEvent)
    | EndEncoding
    | Present
    | Commit

  datatype Frame = Frame(state: RendererState, commands: seq<Command>)

  function DrawCommands(draws: seq<DrawEvent>): (r: seq<Command>)
    ensures |r| == |draws| && forall k :: 0 <= k < |r| ==> r[k] == DrawIndexed(draws[k])
  {
    seq(|draws|, k requires 0 <= k < |draws| => DrawIndexed(draws[k]))
  }

  /** The encoder set-up issued before the scene is drawn. */
  const PassSetup: seq<Command> := [BeginPass(White), SetDepthStencilState, SetFragmentSamplerState(0), SetRenderPipelineState]

  /** The commands closing a drawn frame. */
  const PassFinish: seq<Command> := [EndEncoding, Present, Commit]

  /** `Renderer.draw(in:)`: advance time, animate, then draw only when both a
      render pass descriptor and a drawable are available. */
  function DrawFrame(r: RendererState, env: FrameEnv, find: Finder, childNodeCount: int): (f: Result<Frame, Fault>)
    requires IsFinder(find) && env.preferredFramesPerSecond > 0
    ensures f.Success? ==>
      && childNodeCount >= 1
      && f.value.state.time > r.time
      && f.value.state.time == r.time + 1.0 / env.preferredFramesPerSecond as real
      && f.value.state.scene == Update(r.scene, find, childNodeCount, f.value.state.time,
                                       env.aspectRatio, env.pan, env.zoomIn, env.zoomOut).value
    ensures childNodeCount < 1 ==> f == Failure(EmptySatelliteRange)
    ensures childNodeCount >= 1 && !(env.hasRenderPassDescriptor && env.hasDrawable) ==>
      f.Success? && f.value.commands == []
    ensures childNodeCount >= 1 && env.hasRenderPassDescriptor && env.hasDrawable && !env.hasCommandEncoder ==>
      f == Failure(NoCommandEncoder)
    ensures childNodeCount >= 1 && env.hasRenderPassDescriptor && env.hasDrawable && env.hasCommandEncoder ==>
      var s := Update(r.scene, find, childNodeCount, r.time + 1.0 / env.preferredFramesPerSecond as real,
                      env.aspectRatio, env.pan, env.zoomIn, env.zoomOut).value;
      && (f.Success? <==> TreeOk(s, s.rootNode))
      && (f.Failure? ==> f.error == (if |s.lights| < 3 then LightIndexOutOfRange else NoVertexBuffer))
    ensures f.Success? && f.value.commands != [] ==>
      && env.hasRenderPassDescriptor && env.hasDrawable && env.hasCommandEncoder
      && |f.value.commands| >= |PassSetup| + |PassFinish|
      && f.value.commands[..|PassSetup|] == PassSetup
      && f.value.commands[|f.value.commands| - |PassFinish|..] == PassFinish
  {
    var time := r.time + 1.0 / env.preferredFramesPerSecond as real;
    var scene :- Update(r.scene, find, childNodeCount, time, env.aspectRatio, env.pan, env.zoomIn, env.zoomOut);
    var next := RendererState(scene, time);
    if !(env.hasRenderPassDescriptor && env.hasDrawable) then Success(Frame(next, []))
    else if !env.hasCommandEncoder then Failure(NoCommandEncoder)
    else
      DrawSucceedsIff(scene, scene.rootNode, Identity);
      var draws :- DrawRecursive(scene, scene.rootNode, Identity);
      Success(Frame(next, PassSetup + DrawCommands(draws) + PassFinish))
  }

  /** With a render pass descriptor, a drawable and an encoder, the frame
      completes exactly when the satellite range is valid and no node of the
      animated scene traps, and then its commands are the pass set-up, the
      draws of every node of the animated tree in pre-order with world
      transform = the product of the local matrices on its path, and the
      pass finish. */
  lemma FrameDrawsFromRoot(r: RendererState, env: FrameEnv, find: Finder, childNodeCount: int)
    requires IsFinder(find) && env.preferredFramesPerSecond > 0
    requires env.hasRenderPassDescriptor && env.hasDrawable && env.hasCommandEncoder
    ensures var f := DrawFrame(r, env, find, childNodeCount);
      && (f.Success? <==>
           && childNodeCount >= 1
           && var s := Update(r.scene, find, childNodeCount, r.time + 1.0 / env.preferredFramesPerSecond as real,
                              env.aspectRatio, env.pan, env.zoomIn, env.zoomOut).value;
              TreeOk(s, s.rootNode))
      && (f.Success? ==>
           var root := f.value.state.scene.rootNode;
           && f.value.commands
              == PassSetup + DrawCommands(EmitAlong(f.value.state.scene, root, Identity, Paths(root))) + PassFinish
           && |f.value.commands| == |PassSetup| + DrawCount(root) + |PassFinish|)
  {
    var f := DrawFrame(r, env, find, childNodeCount);
    if f.Success? {
      var s := f.value.state.scene;
      DrawMatchesPreorder(s, s.rootNode, Identity);
    }
  }

  /** `update` keeps the invariant that no node traps when drawn: it changes
      model matrices only, and keeps the lights. */
  lemma UpdateKeepsTreeOk(s: Scene, find: Finder, childNodeCount: int, time: real, aspectRatio: real,
                          pan: bool, zoomIn: bool, zoomOut: bool)
    requires IsFinder(find) && childNodeCount >= 1 && TreeOk(s, s.rootNode)
    ensures var s' := Update(s, find, childNodeCount, time, aspectRatio, pan, zoomIn, zoomOut).value;
      TreeOk(s', s'.rootNode)
  {
    var s' := Update(s, find, childNodeCount, time, aspectRatio, pan, zoomIn, zoomOut).value;
    UpdateKeepsShape(s, find, childNodeCount, time, aspectRatio, pan, zoomIn, zoomOut);
    forall p | ValidPath(s'.rootNode, p) ensures NodeOk(s', NodeAt(s'.rootNode, p)) {
      SameShapeNodeAt(s'.rootNode, s.rootNode, p);
    }
  }

  /** A frame that offers a drawable also offers an encoder. */
  predicate EncoderWhenDrawn(env: FrameEnv) {
    env.hasRenderPassDescriptor && env.hasDrawable ==> env.hasCommandEncoder
  }

  /** The view calling `draw(in:)` once per environment in turn, stopping
      at the first trap. */
  function RunFrames(r: RendererState, envs: seq<FrameEnv>, find: Finder, childNodeCount: int): Result<RendererState, Fault>
    requires IsFinder(find) && forall e <- envs :: e.preferredFramesPerSecond > 0
    decreases |envs|
  {
    if envs == [] then Success(r)
    else
      var f :- DrawFrame(r, envs[0], find, childNodeCount);
      assert forall e <- envs[1..] :: e in envs;
      RunFrames(f.state, envs[1..], find, childNodeCount)
  }

  /** From a scene where no node traps, every frame completes: the
      invariant is kept by each frame's `update`. */
  lemma {:induction false} FramesKeepDrawing(r: RendererState, envs: seq<FrameEnv>, find: Finder, childNodeCount: int)
    requires IsFinder(find) && childNodeCount >= 1
    requires forall e <- envs :: e.preferredFramesPerSecond > 0 && EncoderWhenDrawn(e)
    requires TreeOk(r.scene, r.scene.rootNode)
    ensures RunFrames(r, envs, find, childNodeCount).Success?
    decreases |envs|
  {
    if envs != [] {
      var env := envs[0];
      var time := r.time + 1.0 / env.preferredFramesPerSecond as real;
      UpdateKeepsTreeOk(r.scene, find, childNodeCount, time, env.aspectRatio, env.pan, env.zoomIn, env.zoomOut);
      var f := DrawFrame(r, env, find, childNodeCount);
      assert f.Success?;
      assert forall e <- envs[1..] :: e in envs;
      FramesKeepDrawing(f.value.state, envs[1..], find, childNodeCount);
    }
  }

  /** Starting from the built scene at time 0, every frame completes when
      the loaded mesh, if any, has a vertex buffer, the satellite range is
      valid and each frame that offers a drawable offers an encoder. */
  lemma BuiltSceneKeepsDrawing(firstMesh: Option<Mesh>, texture: Texture, envs: seq<FrameEnv>,
                               find: Finder, childNodeCount: int)
    requires IsFinder(find) && childNodeCount >= 1
    requires firstMesh.None? || |firstMesh.value.vertexBuffers| >= 1
    requires forall e <- envs :: e.preferredFramesPerSecond > 0 && EncoderWhenDrawn(e)
    ensures RunFrames(RendererState(BuildScene(firstMesh, texture), 0.0), envs, find, childNodeCount).Success?
  {
    BuiltSceneDrawable(firstMesh, texture);
    FramesKeepDrawing(RendererState(BuildScene(firstMesh, texture), 0.0), envs, find, childNodeCount);
  }

  /** In a root with one childless child named "formica_rufa", the lookup
      of the central name finds the child. */
  lemma SetCentralOfLeaf(find: Finder, root: Node)
    requires IsFinder(find) && root.name != CentralName
    requires |root.children| == 1 && root.children[0].children == [] && root.children[0].name == CentralName
    ensures SetNamed(find, root, CentralName, CentralTransform)
         == root.(children := [root.children[0].(modelMatrix := CentralTransform)])
  {
    TwoNodePaths(root);
    assert Finds(root, CentralName, find(root, CentralName));
    assert ValidPath(root, [0]) && NodeAt(root, [0]).name == CentralName;
    assert find(root, CentralName).value == [0];
  }

  /** A root named "Root" with one childless child named "formica_rufa"
      holds no satellite name. */
  lemma NoSatelliteInLeaf(t: Node, j: nat)
    requires t.name == "Root" && |t.children| == 1 && t.children[0].children == [] && t.children[0].name == CentralName
    ensures !HasName(t, SatelliteName(j))
  {
    TwoNodePaths(t);
    NamesDistinct(j, j);
    assert |SatelliteName(j)| > |"Root"|;
    forall q | ValidPath(t, q) ensures NodeAt(t, q).name != SatelliteName(j) {
      assert q == [] || q == [0];
    }
  }

  /** The satellite loop leaves a root named "Root" with one childless
      child named "formica_rufa" as it is. */
  lemma AnimateLeafUnchanged(find: Finder, t: Node, count: int, time: real)
    requires IsFinder(find) && count >= 1
    requires t.name == "Root" && |t.children| == 1 && t.children[0].children == [] && t.children[0].name == CentralName
    ensures AnimateFrom(find, t, count, time, 1) == t
  {
    forall j: nat | 1 <= j <= count ensures !HasName(t, SatelliteName(j)) {
      NoSatelliteInLeaf(t, j);
    }
    AnimateFromAbsent(find, t, count, time, 1);
  }

  /** Animating the built tree, in any frame, sets the central node to
      `scale(0.5)` and changes nothing else: it has no satellite nodes. */
  lemma UpdateBuiltTree(firstMesh: Option<Mesh>, texture: Texture, find: Finder, childNodeCount: int,
                        time: real, aspectRatio: real, pan: bool, zoomIn: bool, zoomOut: bool)
    requires IsFinder(find) && childNodeCount >= 1
    ensures var root := BuildScene(firstMesh, texture).rootNode;
      Update(BuildScene(firstMesh, texture), find, childNodeCount, time, aspectRatio, pan, zoomIn, zoomOut).value.rootNode
        == root.(children := [root.children[0].(modelMatrix := CentralTransform)])
  {
    var built := BuildScene(firstMesh, texture);
    var root := built.rootNode;
    SetCentralOfLeaf(find, root);
    var central := root.(children := [root.children[0].(modelMatrix := CentralTransform)]);
    AnimateLeafUnchanged(find, central, childNodeCount, time);
    UpdateRoot(built, find, childNodeCount, time, aspectRatio, pan, zoomIn, zoomOut);
  }

  /** The first frame of the built scene, without panning: whatever the
      satellite count, the only draws are those of the central node, one
      per submesh of its mesh, at scale 0.5 under the identity root, with
      the projection of a π/6 field of view times the view from (0, 0, 3). */
  lemma FirstFrameDrawsCentralNode(mesh: Mesh, texture: Texture, find: Finder, childNodeCount: int,
                                   time: real, aspectRatio: real)
    requires IsFinder(find) && childNodeCount >= 1 && |mesh.vertexBuffers| >= 1
    ensures var s := Update(BuildScene(Some(mesh), texture), find, childNodeCount, time, aspectRatio, false, false, false).value;
      var d := DrawRecursive(s, s.rootNode, Identity);
      && d.Success?
      && |d.value| == |mesh.submeshes|
      && forall e <- d.value ::
        && e.nodeName == CentralName
        && e.vertexUniforms.modelMatrix == CentralTransform
        && e.vertexUniforms.viewProjectionMatrix ==
           [Perspective(Pi / 6.0, aspectRatio, 0.1, 100.0),
            Translate(Vec3(0.0, 0.0, -3.0)), Rotate(XAxis, 0.0), Rotate(YAxis, 0.0)]
  {
    var s := Update(BuildScene(Some(mesh), texture), find, childNodeCount, time, aspectRatio, false, false, false).value;
    UpdateBuiltTree(Some(mesh), texture, find, childNodeCount, time, aspectRatio, false, false, false);
    DrawRootWithOneLeaf(s, s.rootNode);
    MulIdentity(CentralTransform);
  }
}

=== FILE: Scene.dfy ===
/** The scene state: the orbit camera, the derived view and projection
    matrices, the node tree, the ambient colour and the global lights. */
module Scenes {
  import opened Transform
  import opened Entities
  import opened Nodes

  /** The orbit camera. `orbit` is the last 2D drag offset recorded. It is
      read again by every tick while the view pans, until `updateOrbit`
      replaces it. */
  datatype Camera = Camera(orbit: Vec2, cameraAngles: Vec2, cameraWorldPosition: Vec3)

  /** A run-time trap of the renderer: the process stops. */
  datatype Fault =
    | EmptySatelliteRange    // `1...childNodeCount` with a count below 1
    | LightIndexOutOfRange   // `lights[0]`, `lights[1]` or `lights[2]` missing
    | NoVertexBuffer         // a drawn mesh without a first vertex buffer
    | NoCommandEncoder       // no render command encoder for an available drawable

  datatype Scene = Scene(
    camera: Camera,
    viewMatrix: Transform,
    projectionMatrix: Transform,
    rootNode: Node,
    ambientLightColor: Vec3,
    lights: seq<Light>)

  /** Radians of camera angle per unit of drag offset, per tick. */
  const OrbitSensitivity: real := 0.001

  /** `Camera()`: no pending drag, zero angles, three units in front of the origin. */
  function NewCamera(): (c: Camera)
    ensures c.orbit == Vec2(0.0, 0.0) && c.cameraAngles == Vec2(0.0, 0.0)
    ensures c.cameraWorldPosition == Vec3(0.0, 0.0, 3.0)
  {
    Camera(Vec2(0.0, 0.0), Vec2(0.0, 0.0), Vec3(0.0, 0.0, 3.0))
  }

  /** `Scene()`: a default camera, identity matrices, a lone grouping node
      named "Root", black ambient light and no lights yet. */
  function NewScene(): (s: Scene)
    ensures s.camera == NewCamera()
    ensures s.viewMatrix == Identity && s.projectionMatrix == Identity
    ensures s.rootNode == NewNode("Root")
    ensures s.ambientLightColor == Vec3(0.0, 0.0, 0.0) && s.lights == []
  {
    Scene(NewCamera(), Identity, Identity, NewNode("Root"), Vec3(0.0, 0.0, 0.0), [])
  }

  /** `Camera.updateAngles`: one tick of orbiting. The vertical drag offset
      drives the first angle and the horizontal one the second. */
  function UpdateAngles(c: Camera): (r: Camera)
    ensures r.cameraAngles.x - c.cameraAngles.x == OrbitSensitivity * c.orbit.y
    ensures r.cameraAngles.y - c.cameraAngles.y == OrbitSensitivity * c.orbit.x
    ensures r.orbit == c.orbit && r.cameraWorldPosition == c.cameraWorldPosition
  {
    c.(cameraAngles := Vec2(c.cameraAngles.x + OrbitSensitivity * c.orbit.y,
                            c.cameraAngles.y + OrbitSensitivity * c.orbit.x))
  }

  /** `Scene.updateOrbit`: records the drag offset and nothing else. */
  function UpdateOrbit(s: Scene, orbit: Vec2): (r: Scene)
    ensures r.camera.orbit == orbit
    ensures r.camera.cameraAngles == s.camera.cameraAngles
    ensures r == s.(camera := r.camera) && r.camera == s.camera.(orbit := orbit)
  {
    s.(camera := s.camera.(orbit := orbit))
  }

  /** The view matrix of a camera: move the world opposite to the camera,
      then pitch about X by the first angle, then yaw about Y by the second. */
  function ViewMatrix(c: Camera): (r: Transform)
    ensures r == Mul(Mul([Translate(Negate(c.cameraWorldPosition))], [Rotate(XAxis, c.cameraAngles.x)]),
                     [Rotate(YAxis, c.cameraAngles.y)])
  {
    [Translate(Negate(c.cameraWorldPosition)), Rotate(XAxis, c.cameraAngles.x), Rotate(YAxis, c.cameraAngles.y)]
  }

  /** Vertical field of view, near and far planes of the projection. */
  const FieldOfView: real := Pi / 6.0
  const NearZ: real := 0.1
  const FarZ: real := 100.0

  /** The perspective projection for a drawable of the given aspect ratio. */
  function ProjectionMatrix(aspectRatio: real): (r: Transform)
    ensures r == [Perspective(Pi / 6.0, aspectRatio, 0.1, 100.0)]
  {
    [Perspective(FieldOfView, aspectRatio, NearZ, FarZ)]
  }
}

=== FILE: Transform.dfy ===
/** The math utilities of the renderer, kept abstract.

    A 4x4 matrix is never computed. A transform is instead the word of the
    elementary constructors (`float4x4(translationBy:)`,
    `float4x4(rotationAbout:by:)`, `float4x4(scaleBy:)`,
    `float4x4(perspectiveProjectionFov:...)`) whose product it is, read left
    to right. Matrix multiplication becomes concatenation and the identity
    matrix becomes the empty word: the free monoid on the constructors. Every
    equation the model proves between transforms therefore holds for the
    matrices too, over exact arithmetic, whatever their numeric values. */
module Transform {

  datatype Vec2 = Vec2(x: real, y: real)

  datatype Vec3 = Vec3(x: real, y: real, z: real)

  /** An elementary transform constructor, left uninterpreted. */
  datatype Tag =
    | Translate(offset: Vec3)
    | Rotate(axis: Vec3, angle: real)
    | Scale(factor: real)
    | Perspective(fovY: real, aspectRatio: real, nearZ: real, farZ: real)

  /** A product of elementary transforms, leftmost factor outermost. */
  type Transform = seq<Tag>

  /** `matrix_identity_float4x4`. */
  const Identity: Transform := []

  /** `Float.pi`, idealised as a real number. Trigonometry is uninterpreted,
      so no statement of the model depends on its digits. */
  const Pi: real := 3.14159265358979323846

  const XAxis: Vec3 := Vec3(1.0, 0.0, 0.0)
  const YAxis: Vec3 := Vec3(0.0, 1.0, 0.0)
  const ZAxis: Vec3 := Vec3(0.0, 0.0, 1.0)

  /** The matrix product `a * b`. */
  function Mul(a: Transform, b: Transform): (r: Transform)
    ensures |r| == |a| + |b|
    ensures r[..|a|] == a && r[|a|..] == b
  {
    a + b
  }

  function Negate(v: Vec3): (r: Vec3)
    ensures r.x + v.x == 0.0 && r.y + v.y == 0.0 && r.z + v.z == 0.0
  {
    Vec3(-v.x, -v.y, -v.z)
  }

  /** The identity is a two-sided unit of the product. */
  lemma MulIdentity(a: Transform)
    ensures Mul(Identity, a) == a && Mul(a, Identity) == a
  {
  }

  /** The product is associative, so a chain of products needs no brackets. */
  lemma MulAssociative(a: Transform, b: Transform, c: Transform)
    ensures Mul(Mul(a, b), c) == Mul(a, Mul(b, c))
  {
  }
}

=== FILE: Traversal.dfy ===
/** The recursive draw traversal, `Scene.drawRecursive`, as a pure function
    from a tree and a parent transform to the list of indexed draws it
    issues. Each draw carries the uniforms and resources bound on the
    encoder when it is issued; the traversal changes no scene or node state. */
module Traversal {
  import opened Wrappers
  import opened Transform
  import opened Entities
  import opened Nodes
  import opened Preorder
  import opened Scenes

  /** The per-draw vertex uniforms. The normal matrix is a function of the
      model matrix and is not kept. */
  datatype VertexUniforms = VertexUniforms(viewProjectionMatrix: Transform, modelMatrix: Transform)

  /** The per-draw fragment uniforms: camera, ambient light, the node's
      material and the three light slots. */
  datatype FragmentUniforms = FragmentUniforms(
    cameraWorldPosition: Vec3,
    ambientLightColor: Vec3,
    specularColor: Vec3,
    specularPower: real,
    light0: Light,
    light1: Light,
    light2: Light)

  /** One `drawIndexedPrimitives` call: the node drawn, the uniforms, texture
      and vertex buffer bound for it, and the submesh drawn. */
  datatype DrawEvent = DrawEvent(
    nodeName: string,
    vertexUniforms: VertexUniforms,
    fragmentUniforms: FragmentUniforms,
    texture: Texture,
    vertexBuffer: MeshBuffer,
    submeshIndex: nat,
    submesh: Submesh)

  /** A node is drawn iff it has both a mesh and a base-colour texture. */
  predicate Drawable(n: Node) {
    n.mesh.Some? && n.material.baseColorTexture.Some?
  }

  /** Drawing `n` does not trap: it is not drawn, or the scene has the three
      lights the fragment uniforms read and its mesh has a vertex buffer. */
  predicate NodeOk(s: Scene, n: Node) {
    Drawable(n) ==> |s.lights| >= 3 && |n.mesh.value.vertexBuffers| >= 1
  }

  /** The number of draws node `n` issues when it does not trap. */
  function SubmeshCount(n: Node): nat {
    if Drawable(n) then |n.mesh.value.submeshes| else 0
  }

  /** The fields of a draw that come from the scene rather than from the node. */
  ghost predicate SceneUniforms(s: Scene, e: DrawEvent) {
    && |s.lights| >= 3
    && e.vertexUniforms.viewProjectionMatrix == Mul(s.projectionMatrix, s.viewMatrix)
    && e.fragmentUniforms.cameraWorldPosition == s.camera.cameraWorldPosition
    && e.fragmentUniforms.ambientLightColor == s.ambientLightColor
    && e.fragmentUniforms.light0 == s.lights[0]
    && e.fragmentUniforms.light1 == s.lights[1]
    && e.fragmentUniforms.light2 == s.lights[2]
  }

  /** The draws of a single node with world transform `world`: one per
      submesh, in submesh order, or none when the node is not drawn. */
  function Emit(s: Scene, n: Node, world: Transform): (r: seq<DrawEvent>)
    ensures NodeOk(s, n) ==> |r| == SubmeshCount(n)
    ensures forall k :: 0 <= k < |r| ==>
      && Drawable(n) && NodeOk(s, n) && SceneUniforms(s, r[k])
      && r[k].nodeName == n.name
      && r[k].vertexUniforms.modelMatrix == world
      && r[k].fragmentUniforms.specularColor == n.material.specularColor
      && r[k].fragmentUniforms.specularPower == n.material.specularPower
      && r[k].texture == n.material.baseColorTexture.value
      && r[k].vertexBuffer == n.mesh.value.vertexBuffers[0]
      && r[k].submeshIndex == k && r[k].submesh == n.mesh.value.submeshes[k]
  {
    if Drawable(n) && |s.lights| >= 3 && |n.mesh.value.vertexBuffers| >= 1 then
      var mesh := n.mesh.value;
      var vertex := VertexUniforms(Mul(s.projectionMatrix, s.viewMatrix), world);
      var fragment := FragmentUniforms(s.camera.cameraWorldPosition, s.ambientLightColor,
                                       n.material.specularColor, n.material.specularPower,
                                       s.lights[0], s.lights[1], s.lights[2]);
      seq(|mesh.submeshes|, k requires 0 <= k < |mesh.submeshes| =>
        DrawEvent(n.name, vertex, fragment, n.material.baseColorTexture.value, mesh.vertexBuffers[0], k, mesh.submeshes[k]))
    else []
  }

  /** The draw step for one node: the light slots are read before the
      vertex buffer is looked up, and each traps when missing. */
  function DrawNode(s: Scene, n: Node, world: Transform): (r: Result<seq<DrawEvent>, Fault>)
    ensures r.Success? <==> NodeOk(s, n)
    ensures r.Success? ==> r.value == Emit(s, n, world)
    ensures r.Failure? ==> r.error == (if |s.lights| < 3 then LightIndexOutOfRange else NoVertexBuffer)
  {
    if !Drawable(n) then Success([])
    else if |s.lights| < 3 then Failure(LightIndexOutOfRange)
    else if |n.mesh.value.vertexBuffers| == 0 then Failure(NoVertexBuffer)
    else Success(Emit(s, n, world))
  }

  /** The number of draws in the subtree of `n`. */
  function DrawCount(n: Node): nat
    decreases n
  {
    SubmeshCount(n) + DrawCountAll(n.children)
  }

  function DrawCountAll(cs: seq<Node>): nat
    decreases cs
  {
    if cs == [] then 0 else DrawCount(cs[0]) + DrawCountAll(cs[1..])
  }

  /** `drawRecursive(node:parentTransform:commandEncoder:)`: the node is
      drawn with `parentTransform * node.modelMatrix`, and that product, not
      `parentTransform`, is handed to every child in turn. */
  function DrawRecursive(s: Scene, node: Node, parentTransform: Transform): (r: Result<seq<DrawEvent>, Fault>)
    ensures r.Success? ==> |r.value| == DrawCount(node)
    ensures r.Success? ==> forall e <- r.value :: SceneUniforms(s, e)
    ensures r.Failure? ==> r.error == (if |s.lights| < 3 then LightIndexOutOfRange else NoVertexBuffer)
    decreases node
  {
    var modelMatrix := Mul(parentTransform, node.modelMatrix);
    var own :- DrawNode(s, node, modelMatrix);
    var rest :- DrawChildren(s, node.children, modelMatrix);
    Success(own + rest)
  }

  /** `for child in node.children { drawRecursive(child, modelMatrix) }`. */
  function DrawChildren(s: Scene, cs: seq<Node>, parentTransform: Transform): (r: Result<seq<DrawEvent>, Fault>)
    ensures r.Success? ==> |r.value| == DrawCountAll(cs)
    ensures r.Success? ==> forall e <- r.value :: SceneUniforms(s, e)
    ensures r.Failure? ==> r.error == (if |s.lights| < 3 then LightIndexOutOfRange else NoVertexBuffer)
    decreases cs
  {
    if cs == [] then Success([])
    else
      var first :- DrawRecursive(s, cs[0], parentTransform);
      var rest :- DrawChildren(s, cs[1..], parentTransform);
      Success(first + rest)
  }

  // ---------------------------------------------------------------------
  // When the traversal traps

  /** No node of the subtree of `t` traps when drawn. */
  ghost predicate TreeOk(s: Scene, t: Node) {
    forall p :: ValidPath(t, p) ==> NodeOk(s, NodeAt(t, p))
  }

  lemma TreeOkSplit(s: Scene, t: Node)
    ensures TreeOk(s, t) <==> NodeOk(s, t) && forall i :: 0 <= i < |t.children| ==> TreeOk(s, t.children[i])
  {
    if TreeOk(s, t) {
      assert ValidPath(t, []);
      forall i, p | 0 <= i < |t.children| && ValidPath(t.children[i], p)
        ensures NodeOk(s, NodeAt(t.children[i], p))
      {
        assert ([i] + p)[1..] == p;
        assert ValidPath(t, [i] + p);
      }
    }
    if NodeOk(s, t) && forall i :: 0 <= i < |t.children| ==> TreeOk(s, t.children[i]) {
      forall p | ValidPath(t, p) ensures NodeOk(s, NodeAt(t, p)) {
        if p != [] {
          assert TreeOk(s, t.children[p[0]]);
          assert ValidPath(t.children[p[0]], p[1..]);
          assert NodeAt(t, p) == NodeAt(t.children[p[0]], p[1..]);
        }
      }
    }
  }

  /** The traversal completes iff no node of the tree traps; otherwise the
      process stops at the first drawn node in pre-order, on the light slots
      when there are fewer than three lights and on the vertex buffer otherwise. */
  lemma {:induction false} DrawSucceedsIff(s: Scene, t: Node, parentTransform: Transform)
    ensures DrawRecursive(s, t, parentTransform).Success? <==> TreeOk(s, t)
    decreases t
  {
    TreeOkSplit(s, t);
    DrawChildrenSucceedsIff(s, t.children, Mul(parentTransform, t.modelMatrix));
  }

  lemma {:induction false} DrawChildrenSucceedsIff(s: Scene, cs: seq<Node>, parentTransform: Transform)
    ensures DrawChildren(s, cs, parentTransform).Success? <==> forall i :: 0 <= i < |cs| ==> TreeOk(s, cs[i])
    decreases cs
  {
    if cs != [] {
      DrawSucceedsIff(s, cs[0], parentTransform);
      DrawChildrenSucceedsIff(s, cs[1..], parentTransform);
      assert forall i :: 1 <= i < |cs| ==> cs[i] == cs[1..][i - 1];
    }
  }

  // ---------------------------------------------------------------------
  // What the traversal draws

  /** The draws of the node at path `p` below `t`, with world transform
      `parentTransform` times the local transforms along the path. */
  function EmitAt(s: Scene, t: Node, parentTransform: Transform, p: Path): seq<DrawEvent> {
    if ValidPath(t, p) then Emit(s, NodeAt(t, p), Mul(parentTransform, PathProduct(t, p))) else []
  }

  /** The draws of the nodes at `ps`, one node after the other. */
  function EmitAlong(s: Scene, t: Node, parentTransform: Transform, ps: seq<Path>): seq<DrawEvent>
    decreases |ps|
  {
    if ps == [] then [] else EmitAt(s, t, parentTransform, ps[0]) + EmitAlong(s, t, parentTransform, ps[1..])
  }

  lemma {:induction false} EmitAlongAppend(s: Scene, t: Node, parentTransform: Transform, a: seq<Path>, b: seq<Path>)
    ensures EmitAlong(s, t, parentTransform, a + b) == EmitAlong(s, t, parentTransform, a) + EmitAlong(s, t, parentTransform, b)
    decreases |a|
  {
    if a != [] {
      assert (a + b)[0] == a[0] && (a + b)[1..] == a[1..] + b;
      EmitAlongAppend(s, t, parentTransform, a[1..], b);
    } else {
      assert a + b == b;
    }
  }

  /** Below child `i`, the world transform picks up `t`'s own local transform. */
  lemma EmitAtUnder(s: Scene, t: Node, parentTransform: Transform, i: nat, p: Path)
    requires i < |t.children|
    ensures EmitAt(s, t, parentTransform, [i] + p) == EmitAt(s, t.children[i], Mul(parentTransform, t.modelMatrix), p)
  {
    var q := [i] + p;
    assert q[0] == i && q[1..] == p;
    if ValidPath(t, q) {
      assert PathProduct(t, q) == Mul(t.modelMatrix, PathProduct(t.children[i], p));
      MulAssociative(parentTransform, t.modelMatrix, PathProduct(t.children[i], p));
    }
  }

  lemma {:induction false} EmitAlongUnder(s: Scene, t: Node, parentTransform: Transform, i: nat, ps: seq<Path>)
    requires i < |t.children|
    ensures EmitAlong(s, t, parentTransform, Under(i, ps)) == EmitAlong(s, t.children[i], Mul(parentTransform, t.modelMatrix), ps)
    decreases |ps|
  {
    if ps != [] {
      EmitAtUnder(s, t, parentTransform, i, ps[0]);
      assert Under(i, ps)[1..] == Under(i, ps[1..]);
      EmitAlongUnder(s, t, parentTransform, i, ps[1..]);
    }
  }

  /** When nothing traps, the traversal draws every node of the tree in
      pre-order, children in array order, each with the world transform
      `parentTransform` times the product of the local transforms on its
      path from `t`, root first. */
  lemma {:induction false} DrawMatchesPreorder(s: Scene, t: Node, parentTransform: Transform)
    requires TreeOk(s, t)
    ensures DrawRecursive(s, t, parentTransform) == Success(EmitAlong(s, t, parentTransform, Paths(t)))
    decreases t, |t.children| + 1
  {
    TreeOkSplit(s, t);
    DrawChildrenMatch(s, t, parentTransform, 0);
    assert t.children[0..] == t.children;
    var ps := Paths(t);
    assert ps[0] == [] && ps[1..] == ChildPaths(t.children, 0);
  }

  /** The children `t.children[i..]` are drawn like their paths below `t`. */
  lemma {:induction false} DrawChildrenMatch(s: Scene, t: Node, parentTransform: Transform, i: nat)
    requires i <= |t.children|
    requires forall j :: 0 <= j < |t.children| ==> TreeOk(s, t.children[j])
    ensures DrawChildren(s, t.children[i..], Mul(parentTransform, t.modelMatrix))
         == Success(EmitAlong(s, t, parentTransform, ChildPaths(t.children[i..], i)))
    decreases t, |t.children| - i
  {
    var cs := t.children[i..];
    var world := Mul(parentTransform, t.modelMatrix);
    if i < |t.children| {
      assert cs[0] == t.children[i] && cs[1..] == t.children[i + 1..];
      DrawMatchesPreorder(s, t.children[i], world);
      DrawChildrenMatch(s, t, parentTransform, i + 1);
      EmitAlongAppend(s, t, parentTransform, Under(i, Paths(cs[0])), ChildPaths(cs[1..], i + 1));
      EmitAlongUnder(s, t, parentTransform, i, Paths(cs[0]));
    }
  }

  /** A node that is not drawn adds no draw, but its children are still
      drawn, with its world transform as their parent transform. */
  lemma GroupNodeForwards(s: Scene, t: Node, parentTransform: Transform)
    requires !Drawable(t)
    ensures DrawRecursive(s, t, parentTransform) == DrawChildren(s, t.children, Mul(parentTransform, t.modelMatrix))
  {
    var rest := DrawChildren(s, t.children, Mul(parentTransform, t.modelMatrix));
    if rest.Success? {
      assert [] + rest.value == rest.value;
    }
  }

  /** A freshly made node is a pure grouping node: drawing it draws nothing. */
  lemma NewNodeDrawsNothing(s: Scene, name: string, parentTransform: Transform)
    ensures DrawRecursive(s, NewNode(name), parentTransform) == Success([])
  {
  }

  /** A grouping root with a single childless child, drawn from the
      identity, draws exactly that child, with the product of the two local
      matrices as its world transform, and traps exactly when the child does. */
  lemma DrawRootWithOneLeaf(s: Scene, root: Node)
    requires !Drawable(root) && |root.children| == 1 && root.children[0].children == []
    ensures DrawRecursive(s, root, Identity)
         == DrawNode(s, root.children[0], Mul(root.modelMatrix, root.children[0].modelMatrix))
  {
    var child := root.children[0];
    MulIdentity(root.modelMatrix);
    GroupNodeForwards(s, root, Identity);
    var own := DrawNode(s, child, Mul(root.modelMatrix, child.modelMatrix));
    assert DrawChildren(s, child.children, Mul(root.modelMatrix, child.modelMatrix)) == Success([]);
    if own.Success? {
      assert own.value + [] == own.value;
    }
    assert root.children[1..] == [];
  }
}

=== FILE: Wrappers.dfy ===
/** Optional values and failure-carrying results, standing in for Swift's
    optionals and for the run-time traps (`fatalError`, an out-of-range index)
    of the renderer. */
module Wrappers {

  /** Swift's `T?`. */
  datatype Option<+T> = None | Some(value: T)

  /** The outcome of an operation that may trap. */
  datatype Result<+R, +E> = Success(value: R) | Failure(error: E) {

    predicate IsFailure() {
      Failure?
    }

    function PropagateFailure<U>(): Result<U, E>
      requires Failure?
    {
      Failure(error)
    }

    function Extract(): R
      requires Success?
    {
      value
    }
  }
}
